=== FILE: README.md ===
# Persistent memory of MAR-DISRUPCION, in Dafny

This project models the persistent memory subsystem of the MAR-DISRUPCION assistant,
together with the small pieces of logic around it. Each part is written as immutable
datatypes and pure state transitions:

- **Memory store.** The `memories` and `memory_relations` tables of
  `AdvancedMemorySystem`.
  - `store_memory`: a single transaction that writes a record and an optional
    `'related'` edge.
  - `retrieve_memories`: a filtered, two-key-sorted, limited query, with related records
    taken through an inner join, and an access-count update on each returned record.
- **The two record caches.**
  - The current one is a `TTLCache` next to a plain priority dict. Lazy expiry empties
    the `TTLCache` but never the dict.
  - The legacy one is two plain dicts.
  - Both evict the entry of least priority; the current cache breaks ties by last
    access.
  - Only the current cache keeps hit and miss counters and a hit ratio, and only it
    has `clear_cache`.
- **`MemoryOptimizer`.** Retention pruning with removal of orphaned relations, and the
  `IF NOT EXISTS` indexes.
- **`MemoryBackup`.** Snapshots, restore with rollback to a safety snapshot, and keep-N
  rotation.
- **Configuration.** The bounds of the Pydantic settings, and `_validate_config_value`.
- **The package-level `MemoryManager` and `DecisionEngine`.**
- **From the AI1.py front end:** the message-history window, tool dispatch, and the
  combination of the two models' answers.

Everything outside the program is an input:

- the wall clock (`now`);
- the embedding model (`embed`, which may fail);
- the remote language-model APIs (each call raises or returns a raw response);
- the tool implementations;
- whether a page copy during restore succeeds.

Modules, one per file:

| module | file | models |
|---|---|---|
| `Results` | results.dfy | `Option`, `Result` and the fault kinds |
| `Ranking` | ranking.dfy | sort keys, stable descending sort, filter, SQL `LIMIT`, first minimum |
| `OrderedMaps` | ordered_maps.dfy | dicts that keep insertion order |
| `MemoryStore` | memory_store.dfy | the tables, `store_memory`'s transaction, `retrieve_memories` |
| `PriorityCache` | priority_cache.dfy | the TTL cache and its metrics |
| `LegacyCache` | legacy_cache.dfy | the legacy two-dict cache |
| `MemorySystem` | memory_system.dfy | both `AdvancedMemorySystem` classes, store plus cache |
| `MemoryOptimizer` | memory_optimizer.dfy | pruning and indexes |
| `MemoryBackup` | memory_backup.dfy | backup, restore, rotation |
| `ConfigModels` | config_models.dfy | Pydantic settings |
| `AiSystem` | ai_system.dfy | `MemoryManager`, `DecisionEngine`, `_validate_config_value` |
| `Orchestrator` | orchestrator.dfy | the Claude and OpenAI interfaces, and `AIOrchestrator` |

Faithful to the code, including its flaws:

- Relations are not checked against existing records, because SQLite does not
  enforce the declared FOREIGN KEY. The inner join later hides such an edge, and
  pruning deletes it.
- After expiry the two cache structures diverge. Eviction can then choose a key that
  is no longer in the `TTLCache`, and `del` raises `KeyError` after the eviction has
  already been counted.
- Restoring a plain `.db` snapshot always rolls back, because `temp_path` is unbound.
- The decompressed file is never removed.
- A restore in the same second as the snapshot it restores overwrites that snapshot
  with the safety backup. The live store then ends up a database file without
  tables, and the call still returns True.
- A rollback that runs in the same second as the failed attempt restores the safety
  backup in its own second, so it wipes the live store the same way. The call
  returns False.

`AiSystem` models the text of `MemoryManager`, `DecisionEngine` and
`_validate_config_value` in `src/mar_disrupcion/__init__.py`, but that file as
committed does not compile. Line 164 indents `def _validate_config_value` less than
the body around it. Lines 177 and 238 put a `return` and the next `def` on one line.
Line 27 uses `logging` without importing it. So these methods never run as written,
and the module states what their text would do once the file loads.

## Model

| member | source | states |
|---|---|---|
| MemoryStore.CreateIndex | src/mar_disrupcion/core/memory_system.py:115-117 | `CREATE INDEX IF NOT EXISTS` leaves the rows alone. An existing index of that name is kept; otherwise the new one is added. |
| MemoryStore.InitDatabase | src/mar_disrupcion/core/memory_system.py:84-117 | Initialisation keeps every row and every existing index, and afterwards the three named indexes exist. On a database that already has them it changes nothing. |
| MemoryStore.NewRecord | src/mar_disrupcion/core/memory_system.py:139-148 | A new record carries its id, content and importance, has never been accessed (count 0), and its last access equals its creation time. |
| MemoryStore.InsertMemory | src/mar_disrupcion/core/memory_system.py:137-159 | The transaction succeeds iff the id is new and, when `related_to` is truthy, the edge key is new; otherwise it fails with IntegrityError. On success exactly one record is appended, and exactly one `('related', strength = importance)` edge is appended iff `related_to` is truthy. The target is not checked, ids grow by the new id, and the primary keys stay unique. |
| MemoryStore.Candidates | src/mar_disrupcion/core/memory_system.py:188-192 | Exactly the rows that pass the WHERE clause (category, `importance >= min`, `timestamp >= now - retention`). |
| MemoryStore.SelectMemories | src/mar_disrupcion/core/memory_system.py:186-197 | Exactly min(`limit`, n) of the n qualifying rows, or a permutation of all of them when `limit` is negative. Every row is a qualifying row of the store, and the rows are sorted by (importance, last_accessed) descending. |
| MemoryStore.SelectIsTop | src/mar_disrupcion/core/memory_system.py:193-194 | A qualifying row left out ranks no higher than any row returned. |
| MemoryStore.SelectTakesAllThatFit | src/mar_disrupcion/core/memory_system.py:190-194 | When the qualifying rows fit in `limit`, every one of them is returned. |
| MemoryStore.SelectOnly | src/mar_disrupcion/core/memory_system.py:186-197 | A store of one qualifying row returns exactly that row. |
| MemoryStore.ContextLimit | src/mar_disrupcion/core/memory_system.py:182 | `context_size or context_depth`: None and 0 fall back to the depth. |
| MemoryStore.Join | src/mar_disrupcion/core/memory_system.py:208-217 | Inner join: every pair is an outgoing edge of the source with its existing target record, and every such edge appears. |
| MemoryStore.RelatedRows | src/mar_disrupcion/core/memory_system.py:208-217 | Joined pairs sorted by strength, strongest first. There are exactly min(`n`, m) of the m pairs of the join, or a permutation of all of them when `n` is negative. |
| MemoryStore.RelatedRowsIsTop | src/mar_disrupcion/core/memory_system.py:208-217 | An edge out of the source whose target exists and that is left out is no stronger than any edge listed. |
| MemoryStore.RelatedRowsTakesAllThatFit | src/mar_disrupcion/core/memory_system.py:208-217 | When those edges fit in `n` (or `n` is negative), every one of them is listed. |
| MemoryStore.ToRelated | src/mar_disrupcion/core/memory_system.py:219-226 | One `{id, content, importance}` per related row, in order. |
| MemoryStore.Touch | src/mar_disrupcion/core/memory_system.py:229-236 | Exactly the given rows get one more access and `last_accessed = now`. Every other row and column is unchanged. |
| MemoryStore.RelatedOf | src/mar_disrupcion/core/memory_system.py:208-226 | The related records are those of the related rows, one for one and in order: strongest first, at most `n` of them, each reachable over an outgoing edge whose target exists. |
| MemoryStore.RelatedExist | src/mar_disrupcion/core/memory_system.py:208-226 | Every reported related record exists in the store and is the target of an edge from the source. |
| MemoryStore.Report | src/mar_disrupcion/core/memory_system.py:238-246 | One result per selected row, reporting its stored columns with the count plus one. Each result's related list is the strongest-first related list of that row, capped and reachable. |
| MemoryStore.RetrieveMemories | src/mar_disrupcion/core/memory_system.py:171-248 | Results report the selected rows. Only those rows are touched; relations and indexes are unchanged. The result respects `limit`. Each related list is the strongest-first list of that row, cut at the context limit (`context_size or context_depth`), and reachable. |
| MemoryStore.InsertThenRetrieve | src/mar_disrupcion/core/memory_system.py:119-248 | On an empty store, an inserted record comes back within the retention window as the single result, with its id, its content and access count 1. |
| MemoryStore.RetrieveOnly | src/mar_disrupcion/core/memory_system.py:171-248 | Against a store of one qualifying row, a retrieve reports exactly that row, with its id, its content and its count plus one. |
| MemoryStore.InsertDangling | src/mar_disrupcion/core/memory_system.py:150-159 | An edge to a missing record is accepted and leaves a dangling relation. A retrieve run right after the store does not report that target. A later store of a record with that id would make the join report it. |
| PriorityCache.NewCache | src/mar_disrupcion/core/memory_system.py:45-60 | The initial cache: both structures empty, all metrics zero, and the invariant holds. |
| PriorityCache.Expire | src/mar_disrupcion/core/memory_system.py:45-49 | Expiry keeps exactly the live entries of the TTLCache, and the priority dict and metrics are untouched. |
| PriorityCache.VictimIsMin | src/mar_disrupcion/core/memory_system.py:259-262 | The victim minimises (priority, last_accessed or 0 when absent), and every key before it in dict order ranks strictly higher. |
| PriorityCache.Admit | src/mar_disrupcion/core/memory_system.py:270-276 | The entry is set with a fresh access time and expiry, the priority is set, and `size` is the new length. |
| PriorityCache.Evict | src/mar_disrupcion/core/memory_system.py:264-268 | Evictions are counted first. The call succeeds iff the victim is still in the TTLCache (otherwise KeyError), and on success the victim is removed from both structures. |
| PriorityCache.MakeRoom | src/mar_disrupcion/core/memory_system.py:257-268 | On success there is room for one entry, and hits and misses are unchanged. |
| PriorityCache.Place | src/mar_disrupcion/core/memory_system.py:257-276 | The placement keeps the invariant, with capacity, ttl, hits and misses unchanged. |
| PriorityCache.UpdateCache | src/mar_disrupcion/core/memory_system.py:254-280 | The same, with expiry first. |
| PriorityCache.PlaceStores | src/mar_disrupcion/core/memory_system.py:270-276 | After a successful placement the entry, its content, its priority and `size = len` are recorded. |
| PriorityCache.UpdateCacheStores | src/mar_disrupcion/core/memory_system.py:254-276 | After a successful update the content and priority are cached. |
| PriorityCache.PlaceOutcome | src/mar_disrupcion/core/memory_system.py:257-268 | Failure happens iff the cache is full and either the priority dict is empty (EmptySequence) or the victim has expired (KeyError). |
| PriorityCache.PlaceBelowCapacity | src/mar_disrupcion/core/memory_system.py:257-276 | Below capacity the key is added, and nothing is evicted or counted. |
| PriorityCache.PlaceEvictsVictim | src/mar_disrupcion/core/memory_system.py:257-268 | A full cache that succeeds had its victim cached, and counts exactly one eviction. |
| PriorityCache.PlaceEvictsEntry | src/mar_disrupcion/core/memory_system.py:257-271 | The TTLCache keys become the old keys minus the victim plus the new id. |
| PriorityCache.PlaceEvictsPriority | src/mar_disrupcion/core/memory_system.py:257-275 | The priority dict becomes the old dict minus the victim, with the new priority set. |
| PriorityCache.PlaceKeepsOthers | src/mar_disrupcion/core/memory_system.py:257-275 | Every other surviving entry is unchanged. |
| PriorityCache.PlaceFailureInsertsNothing | src/mar_disrupcion/core/memory_system.py:257-268 | A failure leaves both structures as they were; a stale victim still counts one eviction. |
| PriorityCache.GetFromCache | src/mar_disrupcion/core/memory_system.py:282-296 | A hit happens iff the entry is live: a hit refreshes the access time and returns the content, a miss returns None. Exactly one of the two counters moves. |
| PriorityCache.HitRatio | src/mar_disrupcion/core/memory_system.py:298-306 | The ratio is hits/(hits+misses), or 0 with no lookups, and lies in [0, 1]. |
| PriorityCache.ClearCache | src/mar_disrupcion/core/memory_system.py:308-318 | Both structures are empty and all metrics are zero. |
| PriorityCache.Lookups | src/mar_disrupcion/core/memory_system.py:282-292 | A run of lookups keeps the invariant. |
| PriorityCache.LookupsCounted | src/mar_disrupcion/core/memory_system.py:282-292 | Every lookup is counted exactly once, and evictions are unchanged. |
| PriorityCache.HitRatioAfterClear | src/mar_disrupcion/core/memory_system.py:298-318 | After a clear and n lookups, the ratio times n equals the number of hits. |
| PriorityCache.InSyncVictimCached | src/mar_disrupcion/core/memory_system.py:257-267 | A full, in-sync cache has a victim, and that victim is cached. |
| PriorityCache.ExpireNothing | src/mar_disrupcion/core/memory_system.py:45-49 | With nothing expired, expiry is the identity. |
| PriorityCache.PlaceKeepsSync | src/mar_disrupcion/core/memory_system.py:257-275 | A placement into an in-sync cache with positive capacity succeeds and keeps the cache in sync. |
| PriorityCache.InSyncNeverFails | src/mar_disrupcion/core/memory_system.py:254-280 | With nothing expired and the cache in sync, `_update_cache` never raises and keeps the sync. |
| PriorityCache.ExpiredKeepsPriority | src/mar_disrupcion/core/memory_system.py:45-50 | An expired key leaves the TTLCache but keeps its priority, so the two structures diverge. |
| PriorityCache.StoreA | src/mar_disrupcion/core/memory_system.py:254-276 | Scenario: "a" is stored at time 0. |
| PriorityCache.ExpireAfterA | src/mar_disrupcion/core/memory_system.py:45-50 | Scenario: at time 20, "a" has expired out of the TTLCache only. |
| PriorityCache.StoreBAfterAExpired | src/mar_disrupcion/core/memory_system.py:257-276 | Scenario: "b" is stored below capacity, and the priority of "a" is still held. |
| PriorityCache.StoreCRaises | src/mar_disrupcion/core/memory_system.py:259-267 | Scenario: the stale "a" is the victim; `del` raises KeyError after one eviction is counted. |
| PriorityCache.StaleVictimRaises | src/mar_disrupcion/core/memory_system.py:254-280 | The whole three-store run ends in KeyError. |
| LegacyCache.NewCache | core/memory_system.py:46-47 | Two empty dicts, and the invariant holds. |
| LegacyCache.VictimIsMin | core/memory_system.py:231-234 | The victim has the least priority, and every key before it in insertion order has a strictly greater one. |
| LegacyCache.Admit | core/memory_system.py:238-239 | Both dicts get the key, and the invariant holds. |
| LegacyCache.EvictVictim | core/memory_system.py:229-236 | The victim is removed from both dicts, leaving room for one. |
| LegacyCache.UpdateCache | core/memory_system.py:226-243 | The update keeps the invariant: equal key sets, and size within `cache_size`. |
| LegacyCache.UpdateCacheOutcome | core/memory_system.py:229-236 | The update raises (EmptySequence, with no change) iff the cache is empty and `cache_size <= 0`. |
| LegacyCache.UpdateCacheSucceeds | core/memory_system.py:229-239 | With a positive `cache_size` the update never raises. |
| LegacyCache.UpdateCacheStores | core/memory_system.py:238-239 | The content and priority are cached. |
| LegacyCache.UpdateCacheBelowCapacity | core/memory_system.py:229-239 | Below capacity, the keys become the old keys plus the id. |
| LegacyCache.UpdateCacheEvicts | core/memory_system.py:229-239 | When full, the keys become the old keys minus the victim plus the id, and the priorities are updated to match. |
| LegacyCache.AdmitKeepsOthers | core/memory_system.py:238-239 | Other entries are unchanged. |
| LegacyCache.UpdateCacheKeepsOthers | core/memory_system.py:229-239 | Other surviving entries are unchanged. |
| LegacyCache.TieVictimIsFirst | core/memory_system.py:231-234 | Of two equal priorities, the earlier inserted is the victim. |
| LegacyCache.TieEvictsEarliest | core/memory_system.py:229-239 | Storing into a full cache of two ties keeps the later key and the new one. |
| MemorySystem.Init | src/mar_disrupcion/core/memory_system.py:28-80 | The cache is sized by `cache_size` with ttl `retention_period`, empty, with zero metrics; the rows are kept. |
| MemorySystem.Commit | src/mar_disrupcion/core/memory_system.py:127-159 | A failed embedding aborts before the database is touched; otherwise the result is the one transaction. |
| MemorySystem.StoreMemory | src/mar_disrupcion/core/memory_system.py:119-169 | Success returns the id. A failed embedding changes nothing. Importance at or below the threshold leaves the cache untouched. The invariant holds. |
| MemorySystem.StoreOutcome | src/mar_disrupcion/core/memory_system.py:127-169 | A rejected INSERT changes nothing (IntegrityError). A commit keeps the record. Below the threshold the store succeeds; above it, it succeeds iff `_update_cache` does. |
| MemorySystem.StoreCacheStep | src/mar_disrupcion/core/memory_system.py:161-163 | A successful store above the threshold ran a successful cache update. |
| MemorySystem.StoreCaches | src/mar_disrupcion/core/memory_system.py:161-163 | Above the threshold, a stored record is cached with its content and importance. |
| MemorySystem.StoreThenGetFromCache | src/mar_disrupcion/core/memory_system.py:161-163 | Looking up such a record before its ttl runs out is a hit that returns its content. |
| MemorySystem.StoreInSyncOnlyFailsBeforeCommit | src/mar_disrupcion/core/memory_system.py:127-169 | With an in-sync, unexpired cache of positive size, the store succeeds iff the embedding and the INSERT succeed. |
| MemorySystem.Retrieve | src/mar_disrupcion/core/memory_system.py:171-252 | Retrieval is the store's retrieve with the window `now - retention_period` and the context-depth fallback; the cache is untouched. |
| MemorySystem.StoreThenRetrieve | src/mar_disrupcion/core/memory_system.py:119-248 | On an empty store, a stored record is the single result of a retrieve of its category, with access count 1. |
| MemorySystem.DanglingRelationAccepted | src/mar_disrupcion/core/memory_system.py:150-159 | A store related to a missing record succeeds and leaves a dangling edge. A retrieve run right after it does not report that target. |
| MemorySystem.LegacyInit | core/memory_system.py:13-52 | Two empty dicts, and the rows are kept. |
| MemorySystem.LegacyStoreMemory | core/memory_system.py:91-141 | The same contract as the current store, with the legacy cache. |
| MemorySystem.LegacyStoreCaches | core/memory_system.py:133-135 | With a positive `cache_size`, the store succeeds iff the embedding and INSERT do. Above the threshold the record is cached with its content and priority. |
| MemorySystem.LegacyRetrieve | core/memory_system.py:143-224 | The same query; the cache is untouched. |
| MemoryOptimizer.CreateIndexes | src/mar_disrupcion/core/memory_optimizer.py:16-43 | Rows are unchanged, the four indexes exist, existing indexes are kept, and nothing else is added. |
| MemoryOptimizer.CreateIndexesIdempotent | src/mar_disrupcion/core/memory_optimizer.py:18-41 | A second run changes nothing. |
| MemoryOptimizer.CleanOldMemories | src/mar_disrupcion/core/memory_optimizer.py:64-93 | Kept records were present and are not stale, and every non-stale record is kept. Relations are a subset, and every relation whose ends both survive is kept. No dangling relation remains, including ones that dangled before. Indexes are unchanged. |
| MemoryOptimizer.CleanKeepsExactly | src/mar_disrupcion/core/memory_optimizer.py:71-76 | A record survives iff `timestamp >= cutoff` or `importance >= 0.8`. |
| MemoryOptimizer.CleanIdempotent | src/mar_disrupcion/core/memory_optimizer.py:64-86 | Pruning twice at the same time equals pruning once. |
| MemoryBackup.CreateBackup | src/mar_disrupcion/core/memory_backup.py:21-52 | The live store is unchanged and the snapshot equals it. With compress, only the `.gz` file of that second remains. Other files are unchanged, and so is an existing `.gz` file of that second when not compressing. |
| MemoryBackup.Decompress | src/mar_disrupcion/core/memory_backup.py:58-63 | A `.gz` file is copied to the plain name of the same stamp (missing file: FileNotFound); a plain path passes through. |
| MemoryBackup.CopyIn | src/mar_disrupcion/core/memory_backup.py:70-72 | The live store becomes the source. When the source is missing, it becomes a file without tables, and that file is created. |
| MemoryBackup.Restore | src/mar_disrupcion/core/memory_backup.py:54-90 | A plain snapshot never returns True. True implies a `.gz` snapshot and a good copy. The live store then equals the snapshot, or is a file without tables in the snapshot's own second. A missing `.gz` changes nothing. |
| MemoryBackup.RestoreGz | src/mar_disrupcion/core/memory_backup.py:58-80 | A `.gz` restore in another second returns True with the snapshot live. The safety snapshot holds the old store, and the decompressed file remains. |
| MemoryBackup.RestoreRollsBack | src/mar_disrupcion/core/memory_backup.py:82-86 | A failed first attempt whose rollback runs in a later second returns False, with the live store as before the call. |
| MemoryBackup.RestorePlainNeverSucceeds | src/mar_disrupcion/core/memory_backup.py:58-86 | Restoring a plain `.db` snapshot never returns True. |
| MemoryBackup.SameSecondRestoreWipes | src/mar_disrupcion/core/memory_backup.py:58-80 | A restore in the snapshot's own second returns True with a live file without tables, and the `.gz` now holds the pre-call state. |
| MemoryBackup.SameSecondRollbackWipes | src/mar_disrupcion/core/memory_backup.py:66-86 | A failed first attempt whose rollback runs in the same second returns False and leaves a live file without tables. |
| MemoryBackup.BackupRestoreRoundTrip | src/mar_disrupcion/core/memory_backup.py:21-80 | Back up, change the store, restore later: the backed-up store is live again. |
| MemoryBackup.SliceStart | src/mar_disrupcion/core/memory_backup.py:114 | Python slice start for `backups[keep:]`: negative values count from the end, and the result is clipped to [0, n]. |
| MemoryBackup.KeptBackups | src/mar_disrupcion/core/memory_backup.py:107-114 | The kept files are newest first and drawn from the listing. There are min(`keep`, n) of them for `keep >= 0`, and all but the oldest `-keep` for a negative `keep`. No listed file left out is newer than a kept one. |
| MemoryBackup.CleanupOldBackups | src/mar_disrupcion/core/memory_backup.py:104-120 | Exactly the kept files remain, unchanged. For `keep >= 0`, min(keep, n) of them are kept. No deleted file is newer than a kept one. |
| ConfigModels.DefaultApi | src/mar_disrupcion/core/config_models.py:8-15 | The API defaults are valid and keep the required keys. |
| ConfigModels.DefaultsValid | src/mar_disrupcion/core/config_models.py:14-43 | Every declared default is within its bounds. |
| ConfigModels.CheckNoneValues | src/mar_disrupcion/core/config_models.py:61-66 | None is rejected with ValueError iff absent; otherwise the value passes unchanged. |
| ConfigModels.Section | src/mar_disrupcion/core/config_models.py:48-52 | A section is accepted iff it is present and valid. |
| ConfigModels.LoadSettings | src/mar_disrupcion/core/config_models.py:46-66 | Settings load iff all five sections are present and within bounds, and the result is those sections. |
| ConfigModels.ValidMemoryLegacyCacheNeverRaises | src/mar_disrupcion/core/config_models.py:26-31 | With a valid `cache_size` the legacy `_update_cache` never raises. |
| ConfigModels.ValidMemoryCacheNeverRaises | src/mar_disrupcion/core/config_models.py:26-31 | With a valid `cache_size`, an in-sync and unexpired TTL cache never raises. |
| AiSystem.NewManager | src/mar_disrupcion/__init__.py:47-55 | The fresh table is empty, and the AUTOINCREMENT invariant holds. |
| AiSystem.ManagerStore | src/mar_disrupcion/__init__.py:66-72 | Exactly one row is appended, with the category, data, importance and time. Its id is fresh and ids stay increasing. |
| AiSystem.SelectRows | src/mar_disrupcion/__init__.py:76-80 | Exactly min(`limit`, n) of the n rows of the category, or a permutation of all of them when `limit` is negative. The rows are all of the category and from the table, sorted by importance descending. |
| AiSystem.ManagerRetrieve | src/mar_disrupcion/__init__.py:74-81 | The payloads of the selected rows, in order. |
| AiSystem.SelectRowsIsTop | src/mar_disrupcion/__init__.py:77-80 | A row of the category that is left out is no more important than any row returned. |
| AiSystem.SelectRowsTakesAllThatFit | src/mar_disrupcion/__init__.py:76-80 | When the rows of the category fit in `limit` (or it is negative), every one of them is returned. |
| AiSystem.SelectSingle | src/mar_disrupcion/__init__.py:74-81 | With exactly one row of the category, that row is the answer. |
| AiSystem.StoreThenRetrieve | src/mar_disrupcion/__init__.py:66-81 | Storing into a table without that category, then retrieving it, returns exactly the stored payload. |
| AiSystem.Score | src/mar_disrupcion/__init__.py:87-112 | A scored option keeps the option and its confidence. Its score is 0.4 × security + 0.3 × financial + 0.3 × confidence. |
| AiSystem.Scores | src/mar_disrupcion/__init__.py:97-112 | One score per option, in order. |
| AiSystem.BestIndex | src/mar_disrupcion/__init__.py:114 | `max` picks the first position of maximal score. |
| AiSystem.FirstMaxUnique | src/mar_disrupcion/__init__.py:114 | That position is unique. |
| AiSystem.EvaluateAction | src/mar_disrupcion/__init__.py:93-123 | Empty options fail with EmptySequence. Otherwise the best option is returned iff its confidence is at least the threshold, and only then is a "decisions" row stored with importance = score. None stores nothing. |
| AiSystem.EvaluateActionPicksFirstMax | src/mar_disrupcion/__init__.py:114-121 | The decision returned is the option at the first maximum, and it is recorded as the newest "decisions" row with its score. |
| AiSystem.PlaceholderDecision | src/mar_disrupcion/__init__.py:125-138 | With the 0.5 placeholders the first option is best, and it is below the default 0.85 threshold, so nothing is returned or stored. |
| AiSystem.ValidateConfigValue | src/mar_disrupcion/__init__.py:164-177 | The result is True iff the value is acceptable (present if required, within inclusive bounds). Otherwise the first failing check gives its ValueError. |
| AiSystem.AbsentOptionalPasses | src/mar_disrupcion/__init__.py:169-177 | An absent optional value passes whatever the bounds. |
| AiSystem.CrossedBoundsRejectAll | src/mar_disrupcion/__init__.py:172-176 | With `min > max`, no present value passes. |
| Orchestrator.Recent | AI1.py:209 | `history[-3:]`: the last min(3, n) entries. |
| Orchestrator.Context | AI1.py:207-213 | Between one and two messages per recent entry. |
| Orchestrator.ContextAppend | AI1.py:210-213 | The context of consecutive entries is the concatenation of their contexts, so the entries contribute their messages in history order. |
| Orchestrator.ContextOne | AI1.py:210-213 | One entry contributes its prompt as a user message, followed directly by its own reply unless that reply is an error. |
| Orchestrator.ContextFaithful | AI1.py:207-213 | The user messages of the context are exactly the recent prompts, and the assistant messages exactly their error-free replies, in order. |
| Orchestrator.ClaudeMessages | AI1.py:202-217 | The Claude request has length in [1, 7], ends with the prompt, and the context precedes it. |
| Orchestrator.OpenAiMessages | AI1.py:346-354 | The OpenAI request has length in [2, 8], starts with the system message, and ends with the prompt. |
| Orchestrator.FullContextLength | AI1.py:207-213 | Error-free entries give two messages each. |
| Orchestrator.ProcessToolCall | AI1.py:249-273 | A known name runs its tool: a return becomes a done entry with exactly that output, and a raise becomes an error entry with exactly that message. An unknown or missing name gives the not-found result. The entry names the tool. |
| Orchestrator.ProcessToolCalls | AI1.py:245-275 | One result per call, in input order. |
| Orchestrator.ExtractToolCalls | AI1.py:239-243 | The extractor finds no call. |
| Orchestrator.HandleClaude | AI1.py:219-237 | A response without content, or with no blocks, is an error. Otherwise the first block's text, with one tool result per extracted call. |
| Orchestrator.ClaudeRepliesWithoutTools | AI1.py:222-233 | With the source's extractor the reply is the text alone. |
| Orchestrator.HandleOpenAi | AI1.py:356-365 | An error iff there are no choices; otherwise the first choice with the model name. |
| Orchestrator.Converse | AI1.py:185-194 | A returned call appends exactly one history entry and returns its reply; a raise leaves the history untouched. |
| Orchestrator.ClaudeProcess | AI1.py:170-200 | When the call returns, the reply is the handled response, and the Claude history is the old one plus `Entry(prompt, reply, now)`. A raise gives the error reply and leaves the history unchanged. The history grows by one iff the call returns, and the OpenAI history is untouched. |
| Orchestrator.OpenAiProcess | AI1.py:330-372 | When the call returns, the reply is the first choice with the model name, and the OpenAI history is the old one plus `Entry(prompt, reply, now)`. A raise gives the error reply and leaves the history unchanged. The history grows by one iff the call returns, and the Claude history is untouched. |
| Orchestrator.CombineResponses | AI1.py:407-438 | Both failing gives an error. One failing gives the other reply unchanged. Both good gives content with both as sources. |
| Orchestrator.CombineFailsOnlyIfBoth | AI1.py:410-435 | The combination is an error iff both failed, and the combined text holds both contents. |
| Orchestrator.ProcessMessage | AI1.py:380-405 | Mode "claude" is exactly the Claude round and mode "openai" exactly the OpenAI round, each touching only its own history. Auto mode runs both rounds: each reply and each history is what that model's own round gives, and the combined reply is their combination. |
| Orchestrator.AutoModeRecords | AI1.py:393-402 | Auto mode with both calls returning appends this exchange to both histories, and the next Claude request's user messages are the recent prompts and then the new one. |
| Orchestrator.ClearHistory | AI1.py:281-284 | The history is empty afterwards. |
| Orchestrator.ClearThenPrepare | AI1.py:281-284 | After a clear, the next request is the prompt alone (after the system message for OpenAI). |

## Left out

- Embedding generation and LSTM training (`_generate_embedding`, `train_on_memories`, the torch optimiser): floating-point neural numerics. `embed` is a parameter that may fail.
- SQLite itself, pickle, JSON and gzip: tables are sequences of rows, serialisation and compression are the identity, and files are a map from snapshot names to contents.
- `optimize_queries` and `vacuum_database`: `ANALYZE` and `VACUUM` are engine internals with no effect on contents.
- `schedule_backups`: an endless loop with sleeps.
- The clock: `now` is a parameter. The two `datetime.now()` reads in `store_memory` are one instant, and the id derived from the clock is a parameter.
- Disk errors while writing a backup, unlinking in `_cleanup_old_backups`, or decompressing: not modelled. The one failure kept is the page copy during restore, which is an input.
- MemoryBackup.Restore: the interpreter's recursion limit is modelled as a finite list of environment steps. Running out of steps fails with RecursionLimit.
- Floating point: importances, scores and thresholds are exact reals.
- `get_cache_metrics`: only `hit_ratio` is modelled; the rest of the dict is the metrics record itself.
- The `learned_patterns` table of `MemoryManager`: it is created but never read or written.
- `_load_config` and `_initialize_clients`, environment and `.env` loading, and Pydantic's type coercion: environment reads. Only the validators are modelled.
- The LLM API calls and the tool implementations of AI1.py: inputs. Each call raises or returns, and `run` gives each tool's outcome.
- `get_message_history`: it returns the history unchanged.
- Orchestrator.OpenAiMessages: the OpenAI assistant messages carry `str()` of the earlier reply, but the model carries the reply itself.
- AiSystem.ValidateConfigValue: the messages name the key, but the decimal text of the bound is not modelled. The value is modelled as a number. The bounded calls at `src/mar_disrupcion/__init__.py:199-213` pass the text returned by `os.getenv`, and comparing that text with a numeric bound raises TypeError in Python 3. That outcome is neither True nor ValueError, and the model does not represent it.
- MemoryStore.SelectMemories, MemoryStore.RelatedRows and AiSystem.SelectRows: only the order SQL promises is stated (sorted by the ORDER BY key); the order among ties is not.
- MemoryBackup.Restore: a live file without tables is where the model stops. The store and retrieve operations work on a database with its tables, so the `no such table` errors they would raise on such a file, until `_init_database` runs again, are not modelled.
- Logging, metrics export, the Streamlit UI, network scanning, HTTP clients and the Redis cache wrapper: outside the memory subsystem.

=== FILE: ai_system.dfy ===
/** The package-level components of src/mar_disrupcion/__init__.py: the `memory` table
    of `MemoryManager`, the option scoring of `DecisionEngine.evaluate_action`, and
    `AISystem._validate_config_value`.
 */
module AiSystem {
  import opened Results
  import opened Ranking

  // ---------------------------------------------------------------- MemoryManager

  /** An option as scored by `evaluate_action`; the option itself is opaque JSON. */
  datatype Scored = Scored(option: string, score: real, confidence: real)

  /** What the JSON `data` column holds: a decision record or any other payload. */
  datatype Payload = Decision(decision: Scored, context: string) | Data(text: string)

  /** A row of the `memory` table. */
  datatype Row = Row(id: nat, timestamp: int, category: string, data: Payload, importance: real)

  /** The table, in insertion order, and the next AUTOINCREMENT value. */
  datatype Manager = Manager(rows: seq<Row>, nextId: nat)

  /** AUTOINCREMENT: ids grow with insertion order and stay below the next value. */
  predicate ManagerInv(m: Manager) {
    && (forall i, j :: 0 <= i < j < |m.rows| ==> m.rows[i].id < m.rows[j].id)
    && (forall i :: 0 <= i < |m.rows| ==> m.rows[i].id < m.nextId)
  }

  /** The freshly created table. */
  function NewManager(): (m: Manager)
    ensures ManagerInv(m) && m.rows == []
  {
    Manager([], 1)
  }

  /** `store_memory(category, data, importance)`: one INSERT, timestamped `now`. */
  function ManagerStore(m: Manager, category: string, data: Payload, importance: real, now: int): (r: Manager)
    ensures |r.rows| == |m.rows| + 1 && r.rows[..|m.rows|] == m.rows
    ensures var row := r.rows[|m.rows|];
      row.category == category && row.data == data && row.importance == importance && row.timestamp == now
    ensures ManagerInv(m) ==> ManagerInv(r)
    ensures ManagerInv(m) ==> forall i :: 0 <= i < |m.rows| ==> m.rows[i].id != r.rows[|m.rows|].id
  {
    Manager(m.rows + [Row(m.nextId, now, category, data, importance)], m.nextId + 1)
  }

  /** `ORDER BY importance DESC`. */
  function Importance(row: Row): Key {
    Key(row.importance, 0)
  }

  /** The rows of `category`, in table order. */
  function OfCategory(m: Manager, category: string): (c: seq<Row>)
    ensures forall i :: 0 <= i < |c| ==> c[i] in m.rows && c[i].category == category
    ensures forall i :: 0 <= i < |m.rows| && m.rows[i].category == category ==> m.rows[i] in c
    ensures multiset(c) <= multiset(m.rows)
  {
    Filter(m.rows, (row: Row) => row.category == category)
  }

  /** The SELECT of `retrieve_memories`: rows of `category`, most important first,
      exactly min(limit, n) of the n rows of that category (all of them for a
      negative LIMIT, which SQLite reads as no limit). */
  function SelectRows(m: Manager, category: string, limit: int): (rows: seq<Row>)
    ensures var c := OfCategory(m, category);
      && (limit >= 0 ==> |rows| == if limit < |c| then limit else |c|)
      && (limit < 0 ==> multiset(rows) == multiset(c))
    ensures forall i :: 0 <= i < |rows| ==> rows[i] in m.rows && rows[i].category == category
    ensures SortedDesc(rows, Importance)
    ensures multiset(rows) <= multiset(m.rows)
  {
    TopN(OfCategory(m, category), Importance, limit)
  }

  /** `retrieve_memories(category, limit)`: the payloads of the selected rows. */
  function ManagerRetrieve(m: Manager, category: string, limit: int): (out: seq<Payload>)
    ensures var rows := SelectRows(m, category, limit);
      |out| == |rows| && forall i :: 0 <= i < |out| ==> out[i] == rows[i].data
  {
    var rows := SelectRows(m, category, limit);
    seq(|rows|, i requires 0 <= i < |rows| => rows[i].data)
  }

  /** A row of the category left out of the answer is no more important than any row
      returned. */
  lemma SelectRowsIsTop(m: Manager, category: string, limit: int, row: Row)
    requires row in m.rows && row.category == category
    requires row !in SelectRows(m, category, limit)
    ensures forall y :: y in SelectRows(m, category, limit) ==> y.importance >= row.importance
  {
    var k :| 0 <= k < |m.rows| && m.rows[k] == row;
    TopNIsTop(OfCategory(m, category), Importance, limit, row);
  }

  /** When the rows of the category fit in `limit` (or it is negative), every one of
      them is returned. */
  lemma SelectRowsTakesAllThatFit(m: Manager, category: string, limit: int, row: Row)
    requires row in m.rows && row.category == category
    requires limit < 0 || |OfCategory(m, category)| <= limit
    ensures row in SelectRows(m, category, limit)
  {
    var k :| 0 <= k < |m.rows| && m.rows[k] == row;
    TopNTakesAllThatFit(OfCategory(m, category), Importance, limit, row);
  }

  /** When exactly one row has the category, that row is the whole answer. */
  lemma SelectSingle(m: Manager, category: string, limit: int, row: Row)
    requires multiset(OfCategory(m, category)) == multiset{row}
    requires limit >= 1
    ensures SelectRows(m, category, limit) == [row]
  {
    var rows := SelectRows(m, category, limit);
    assert |OfCategory(m, category)| == 1;
    assert rows[0] in multiset(OfCategory(m, category));
  }

  /** Stored into a table with nothing of its category, a payload is what the next
      retrieval of that category returns. */
  lemma StoreThenRetrieve(m: Manager, category: string, data: Payload, importance: real, now: int, limit: int)
    requires forall i :: 0 <= i < |m.rows| ==> m.rows[i].category != category
    requires limit >= 1
    ensures ManagerRetrieve(ManagerStore(m, category, data, importance, now), category, limit) == [data]
  {
    var m1 := ManagerStore(m, category, data, importance, now);
    var row := m1.rows[|m.rows|];
    var candidates := OfCategory(m1, category);
    assert m1.rows == m.rows + [row];
    assert row in candidates;
    forall x | x in multiset(candidates) ensures x == row {
      assert x in m1.rows;
    }
    assert multiset(candidates)[row] <= multiset(m1.rows)[row] == 1;
    assert multiset(candidates) == multiset{row};
    SelectSingle(m1, category, limit, row);
  }

  // ---------------------------------------------------------------- DecisionEngine

  /** The three per-option evaluators, whose bodies are placeholders in the source. */
  datatype Scorers = Scorers(
    security: string -> real,
    financial: string -> real,
    confidence: (string, string) -> real)

  const SecurityWeight: real := 0.4
  const FinancialWeight: real := 0.3
  const ConfidenceWeight: real := 0.3

  /** The scoring of one option. */
  function Score(sc: Scorers, context: string, option: string): (s: Scored)
    ensures s.option == option && s.confidence == sc.confidence(option, context)
    ensures s.score == sc.security(option) * 0.4 + sc.financial(option) * 0.3 + sc.confidence(option, context) * 0.3
  {
    var confidence := sc.confidence(option, context);
    Scored(option,
           sc.security(option) * SecurityWeight + sc.financial(option) * FinancialWeight
             + confidence * ConfidenceWeight,
           confidence)
  }

  /** The `scores` list: one entry per option, in order. */
  function Scores(sc: Scorers, context: string, options: seq<string>): (r: seq<Scored>)
    ensures |r| == |options|
    ensures forall i :: 0 <= i < |options| ==> r[i] == Score(sc, context, options[i])
  {
    if |options| == 0 then [] else [Score(sc, context, options[0])] + Scores(sc, context, options[1..])
  }

  /** A maximum of `max(scores, key=score)` negated into a minimum. */
  function NegatedScores(scores: seq<Scored>): (keys: seq<Key>)
    ensures |keys| == |scores|
    ensures forall i :: 0 <= i < |scores| ==> keys[i] == Key(-scores[i].score, 0)
  {
    if |scores| == 0 then [] else [Key(-scores[0].score, 0)] + NegatedScores(scores[1..])
  }

  /** Python's `max` keeps the first of equal maxima. */
  predicate IsFirstMax(scores: seq<Scored>, b: int) {
    && 0 <= b < |scores|
    && (forall j :: 0 <= j < |scores| ==> scores[j].score <= scores[b].score)
    && (forall j :: 0 <= j < b ==> scores[j].score < scores[b].score)
  }

  /** The position `max(scores, key=lambda x: x["score"])` picks. */
  function BestIndex(scores: seq<Scored>): (b: nat)
    requires |scores| > 0
    ensures IsFirstMax(scores, b)
  {
    var keys := NegatedScores(scores);
    var b := FirstMin(keys);
    assert forall j :: 0 <= j < |scores| ==> KeyLe(keys[b], keys[j]);
    b
  }

  /** There is only one first maximum. */
  lemma FirstMaxUnique(scores: seq<Scored>, b1: int, b2: int)
    requires IsFirstMax(scores, b1) && IsFirstMax(scores, b2)
    ensures b1 == b2
  {
    assert scores[b1].score == scores[b2].score;
  }

  /** The engine's state: its threshold and the table its manager writes. */
  datatype Engine = Engine(threshold: real, memory: Manager)

  /** The default `confidence_threshold`. */
  const DefaultThreshold: real := 0.85

  /** `evaluate_action(context, options)` at time `now`: score every option, take the
      first best; return it, and store it under "decisions" with its score as
      importance, when its confidence reaches the threshold; otherwise return None. An
      empty option list makes `max` raise. */
  function EvaluateAction(e: Engine, sc: Scorers, context: string, options: seq<string>, now: int)
    : (r: (Engine, Result<Option<Scored>>))
    ensures r.0.threshold == e.threshold
    ensures |options| == 0 <==> r.1.Failure?
    ensures r.1.Failure? ==> r.1.error == EmptySequence && r.0 == e
    ensures r.1.Success? ==>
      var scores := Scores(sc, context, options);
      var best := scores[BestIndex(scores)];
      && (r.1.value.Some? <==> best.confidence >= e.threshold)
      && (r.1.value.Some? ==>
            && r.1.value.value == best
            && r.0.memory == ManagerStore(e.memory, "decisions", Decision(best, context), best.score, now))
      && (r.1.value.None? ==> r.0 == e)
  {
    var scores := Scores(sc, context, options);
    if |scores| == 0 then (e, Failure(EmptySequence))
    else
      var best := scores[BestIndex(scores)];
      if best.confidence >= e.threshold then
        (e.(memory := ManagerStore(e.memory, "decisions", Decision(best, context), best.score, now)),
         Success(Some(best)))
      else (e, Success(None))
  }

  /** The decision returned is the option at the first position of maximal score, and
      it is recorded as the newest "decisions" row, with that score as importance. */
  lemma EvaluateActionPicksFirstMax(e: Engine, sc: Scorers, context: string, options: seq<string>, now: int, b: int)
    requires IsFirstMax(Scores(sc, context, options), b)
    ensures var r := EvaluateAction(e, sc, context, options, now);
      var best := Score(sc, context, options[b]);
      && r.1.Success?
      && (r.1.value.Some? <==> sc.confidence(options[b], context) >= e.threshold)
      && (r.1.value.Some? ==>
            && r.1.value.value.option == options[b]
            && |r.0.memory.rows| == |e.memory.rows| + 1
            && r.0.memory.rows[|e.memory.rows|].category == "decisions"
            && r.0.memory.rows[|e.memory.rows|].data == Decision(best, context)
            && r.0.memory.rows[|e.memory.rows|].importance == best.score)
  {
    var scores := Scores(sc, context, options);
    FirstMaxUnique(scores, b, BestIndex(scores));
  }

  /** With the placeholder evaluators (0.5 each) every option scores the same, so the
      first option is chosen; its confidence 0.5 is below the default threshold, so
      nothing is returned or stored. */
  lemma PlaceholderDecision(m: Manager, context: string, options: seq<string>, now: int)
    requires |options| > 0
    ensures var sc := Scorers(_ => 0.5, _ => 0.5, (_, _) => 0.5);
      var scores := Scores(sc, context, options);
      && BestIndex(scores) == 0
      && EvaluateAction(Engine(DefaultThreshold, m), sc, context, options, now) == (Engine(DefaultThreshold, m), Success(None))
  {
    var sc := Scorers(_ => 0.5, _ => 0.5, (_, _) => 0.5);
    var scores := Scores(sc, context, options);
    assert IsFirstMax(scores, 0);
    FirstMaxUnique(scores, 0, BestIndex(scores));
  }

  // ---------------------------------------------------------------- configuration

  function RequiredMessage(key: string): string {
    "La variable de configuración " + key + " es requerida"
  }

  /** The messages name the key; the bound's decimal text is not modelled. */
  function BelowMessage(key: string): string {
    key + " debe ser mayor o igual al mínimo"
  }

  function AboveMessage(key: string): string {
    key + " debe ser menor o igual al máximo"
  }

  /** Whether a configuration value is acceptable: present when required, and within
      the inclusive bounds that are given. */
  predicate Acceptable(value: Option<real>, minValue: Option<real>, maxValue: Option<real>, required: bool) {
    && (required ==> value.Some?)
    && (value.Some? && minValue.Some? ==> value.value >= minValue.value)
    && (value.Some? && maxValue.Some? ==> value.value <= maxValue.value)
  }

  /** `_validate_config_value(value, key, min_value, max_value, required)`: True for an
      acceptable value, otherwise the first failing check raises. */
  function ValidateConfigValue(value: Option<real>, key: string, minValue: Option<real>,
                               maxValue: Option<real>, required: bool): (r: Result<bool>)
    ensures r.Success? <==> Acceptable(value, minValue, maxValue, required)
    ensures r.Success? ==> r.value
    ensures r.Failure? ==> r.error.ValueError?
    ensures required && value.None? ==> r == Failure(ValueError(RequiredMessage(key)))
    ensures value.Some? && minValue.Some? && value.value < minValue.value ==>
      r == Failure(ValueError(BelowMessage(key)))
    ensures (value.Some? && (minValue.None? || value.value >= minValue.value)
             && maxValue.Some? && value.value > maxValue.value) ==>
      r == Failure(ValueError(AboveMessage(key)))
  {
    if required && value.None? then Failure(ValueError(RequiredMessage(key)))
    else if value.Some? && minValue.Some? && value.value < minValue.value then Failure(ValueError(BelowMessage(key)))
    else if value.Some? && maxValue.Some? && value.value > maxValue.value then Failure(ValueError(AboveMessage(key)))
    else Success(true)
  }

  /** An optional value that is absent always passes, whatever its bounds. */
  lemma AbsentOptionalPasses(key: string, minValue: Option<real>, maxValue: Option<real>)
    ensures ValidateConfigValue(None, key, minValue, maxValue, false) == Success(true)
  {
  }

  /** With `min_value > max_value` no present value passes. */
  lemma CrossedBoundsRejectAll(value: real, key: string, lo: real, hi: real, required: bool)
    requires lo > hi
    ensures ValidateConfigValue(Some(value), key, Some(lo), Some(hi), required).Failure?
  {
  }
}

=== FILE: config_models.dfy ===
/** The Pydantic settings models (src/mar_disrupcion/core/config_models.py): one
    datatype per section with the `Field(ge=..., le=...)` bounds as a validity
    predicate, the declared defaults, and the loading of the five sections with the
    `check_none_values` validator.
 */
module ConfigModels {
  import opened Results
  import PC = PriorityCache
  import LC = LegacyCache

  datatype ApiConfig = ApiConfig(
    anthropicApiKey: string,
    openaiApiKey: string,
    anthropicModel: string,
    openaiModel: string,
    maxTokens: int,
    temperature: real)

  predicate ApiValid(c: ApiConfig) {
    1 <= c.maxTokens <= 100000 && 0.0 <= c.temperature <= 2.0
  }

  /** The defaults; both API keys are required (`Field(...)`) and have none. */
  function DefaultApi(anthropicApiKey: string, openaiApiKey: string): (c: ApiConfig)
    ensures ApiValid(c)
    ensures c.anthropicApiKey == anthropicApiKey && c.openaiApiKey == openaiApiKey
  {
    ApiConfig(anthropicApiKey, openaiApiKey, "claude-3-opus-20240229", "gpt-4-turbo-preview", 64826, 1.0)
  }

  datatype SecurityConfig = SecurityConfig(
    networkScanTimeout: int,
    entropyBufferSize: int,
    deepScanTimeout: int,
    packetCaptureBuffer: int,
    networkAnalysisDepth: int,
    vulnerabilityDbApiKey: Option<string>)

  predicate SecurityValid(c: SecurityConfig) {
    && c.networkScanTimeout >= 1
    && c.entropyBufferSize >= 1024
    && c.deepScanTimeout >= 1
    && c.packetCaptureBuffer >= 1024
    && 1 <= c.networkAnalysisDepth <= 10
  }

  const DefaultSecurity := SecurityConfig(30, 4096, 120, 8192, 3, None)

  datatype MemoryConfig = MemoryConfig(
    retentionPeriod: int,
    contextDepth: int,
    confidenceThreshold: real,
    cacheSize: int)

  predicate MemoryValid(c: MemoryConfig) {
    && c.retentionPeriod >= 1800
    && 1 <= c.contextDepth <= 50
    && 0.0 <= c.confidenceThreshold <= 1.0
    && c.cacheSize >= 256
  }

  const DefaultMemory := MemoryConfig(7200, 8, 0.75, 2048)

  datatype MlConfig = MlConfig(
    learningRate: real,
    lstmHiddenSize: int,
    lstmNumLayers: int,
    dropoutRate: real)

  predicate MlValid(c: MlConfig) {
    && 0.0001 <= c.learningRate <= 0.1
    && c.lstmHiddenSize >= 64
    && 1 <= c.lstmNumLayers <= 10
    && 0.0 <= c.dropoutRate <= 0.5
  }

  const DefaultMl := MlConfig(0.0005, 1024, 3, 0.2)

  datatype MonitoringConfig = MonitoringConfig(logLevel: string, metricsPort: int, prometheusEnabled: bool)

  predicate MonitoringValid(c: MonitoringConfig) {
    1024 <= c.metricsPort <= 65535
  }

  const DefaultMonitoring := MonitoringConfig("INFO", 9090, true)

  /** Every declared default lies within its own bounds. */
  lemma DefaultsValid(anthropicApiKey: string, openaiApiKey: string)
    ensures ApiValid(DefaultApi(anthropicApiKey, openaiApiKey))
    ensures SecurityValid(DefaultSecurity)
    ensures MemoryValid(DefaultMemory)
    ensures MlValid(DefaultMl)
    ensures MonitoringValid(DefaultMonitoring)
  {
  }

  datatype Settings = Settings(
    api: ApiConfig,
    security: SecurityConfig,
    memory: MemoryConfig,
    ml: MlConfig,
    monitoring: MonitoringConfig)

  predicate SettingsValid(s: Settings) {
    && ApiValid(s.api)
    && SecurityValid(s.security)
    && MemoryValid(s.memory)
    && MlValid(s.ml)
    && MonitoringValid(s.monitoring)
  }

  /** The five sections as the environment supplies them, any of them possibly None. */
  datatype RawSettings = RawSettings(
    api: Option<ApiConfig>,
    security: Option<SecurityConfig>,
    memory: Option<MemoryConfig>,
    ml: Option<MlConfig>,
    monitoring: Option<MonitoringConfig>)

  /** `check_none_values`, run before every field: None is rejected, anything else
      passes unchanged. */
  function CheckNoneValues<T>(v: Option<T>): (r: Result<T>)
    ensures r.Success? <==> v.Some?
    ensures r.Success? ==> r.value == v.value
    ensures r.Failure? ==> r.error.ValueError?
  {
    if v.None? then Failure(ValueError("Este campo es requerido")) else Success(v.value)
  }

  /** One section: present, then within its bounds. */
  function Section<T>(v: Option<T>, valid: T -> bool): (r: Result<T>)
    ensures r.Success? <==> v.Some? && valid(v.value)
    ensures r.Success? ==> r.value == v.value
  {
    var present :- CheckNoneValues(v);
    if valid(present) then Success(present) else Failure(ValueError("validation error"))
  }

  /** Building `Settings`: each section must be present and valid. */
  function LoadSettings(raw: RawSettings): (r: Result<Settings>)
    ensures r.Success? <==>
      && raw.api.Some? && ApiValid(raw.api.value)
      && raw.security.Some? && SecurityValid(raw.security.value)
      && raw.memory.Some? && MemoryValid(raw.memory.value)
      && raw.ml.Some? && MlValid(raw.ml.value)
      && raw.monitoring.Some? && MonitoringValid(raw.monitoring.value)
    ensures r.Success? ==>
      && SettingsValid(r.value)
      && r.value == Settings(raw.api.value, raw.security.value, raw.memory.value, raw.ml.value, raw.monitoring.value)
  {
    var api :- Section(raw.api, ApiValid);
    var security :- Section(raw.security, SecurityValid);
    var memory :- Section(raw.memory, MemoryValid);
    var ml :- Section(raw.ml, MlValid);
    var monitoring :- Section(raw.monitoring, MonitoringValid);
    Success(Settings(api, security, memory, ml, monitoring))
  }

  /** A valid memory section has a positive `cache_size`, so the legacy cache's
      eviction never takes `min` of an empty dict: `_update_cache` cannot raise. */
  lemma ValidMemoryLegacyCacheNeverRaises(c: MemoryConfig, cache: LC.Cache, id: string, content: string, importance: real)
    requires MemoryValid(c) && LC.Inv(cache) && cache.capacity == c.cacheSize
    ensures LC.UpdateCache(cache, id, content, importance).1.Success?
  {
    LC.UpdateCacheSucceeds(cache, id, content, importance);
  }

  /** The same for the TTL cache, while its two structures are in sync and nothing
      in it has expired. */
  lemma ValidMemoryCacheNeverRaises(c: MemoryConfig, cache: PC.Cache, id: string, content: string,
                                    importance: real, now: int)
    requires MemoryValid(c) && PC.Inv(cache) && PC.InSync(cache) && cache.capacity == c.cacheSize
    requires forall k :: k in cache.entries.values ==> PC.Live(cache.entries.values[k], now)
    ensures PC.UpdateCache(cache, id, content, importance, now).1.Success?
  {
    PC.InSyncNeverFails(cache, id, content, importance, now);
  }
}

=== FILE: legacy_cache.dfy ===
/** The cache of the older `AdvancedMemorySystem` (core/memory_system.py).

    Two plain dicts are updated together: `priority_cache` (id to content) and
    `cache_priorities` (id to importance). Nothing expires, so the two always hold the
    same keys, and eviction looks at the priority alone.
 */
module LegacyCache {
  import opened Results
  import opened Ranking
  import opened OrderedMaps
  import opened MemoryStore

  datatype Cache = Cache(
    capacity: int,                 // cache_size
    entries: Dict<Id, Content>,    // priority_cache
    priorities: Dict<Id, real>)    // cache_priorities

  /** `len(priority_cache)`. */
  function Size(c: Cache): nat {
    |c.entries.order|
  }

  /** What every update preserves: both dicts well formed, holding the same keys, and
      no more than `cache_size` entries (none at all when `cache_size <= 0`). */
  predicate Inv(c: Cache) {
    && c.entries.Valid()
    && c.priorities.Valid()
    && c.entries.values.Keys == c.priorities.values.Keys
    && (Size(c) <= c.capacity || Size(c) == 0)
  }

  /** The state `__init__` builds. */
  function NewCache(capacity: int): (c: Cache)
    ensures Inv(c) && Size(c) == 0 && c.priorities.values == map[]
  {
    Cache(capacity, Empty(), Empty())
  }

  /** The eviction keys of `keys`, in order: `key=lambda x: x[1]`, the priority alone. */
  function PriorityKeys(c: Cache, keys: seq<Id>): (r: seq<Key>)
    requires forall i :: 0 <= i < |keys| ==> keys[i] in c.priorities.values
    ensures |r| == |keys|
    ensures forall i :: 0 <= i < |keys| ==> r[i] == Key(c.priorities.values[keys[i]], 0)
  {
    if |keys| == 0 then [] else [Key(c.priorities.values[keys[0]], 0)] + PriorityKeys(c, keys[1..])
  }

  /** Position, in dict order, of `min(cache_priorities.items(), key=lambda x: x[1])`. */
  function VictimIndex(c: Cache): (m: nat)
    requires c.priorities.Valid() && |c.priorities.order| > 0
    ensures m < |c.priorities.order|
  {
    FirstMin(PriorityKeys(c, c.priorities.order))
  }

  /** The key `_update_cache` evicts (see `VictimIsMin`). */
  function Victim(c: Cache): (v: Id)
    requires c.priorities.Valid() && |c.priorities.order| > 0
    ensures v in c.priorities.values
  {
    c.priorities.order[VictimIndex(c)]
  }

  /** The victim has the least priority, and among equal priorities it is the earliest
      inserted: every key before it in dict order has a strictly greater priority. */
  lemma VictimIsMin(c: Cache)
    requires c.priorities.Valid() && |c.priorities.order| > 0
    ensures forall k :: k in c.priorities.values ==>
      c.priorities.values[Victim(c)] <= c.priorities.values[k]
    ensures forall i :: 0 <= i < VictimIndex(c) ==>
      c.priorities.values[c.priorities.order[i]] > c.priorities.values[Victim(c)]
  {
    var order := c.priorities.order;
    var keys := PriorityKeys(c, order);
    var m := VictimIndex(c);
    forall k | k in c.priorities.values ensures c.priorities.values[order[m]] <= c.priorities.values[k] {
      var j :| 0 <= j < |order| && order[j] == k;
      assert KeyLe(keys[m], keys[j]);
    }
    forall i | 0 <= i < m ensures c.priorities.values[order[i]] > c.priorities.values[order[m]] {
      assert KeyLt(keys[m], keys[i]);
    }
  }

  /** The unconditional tail of `_update_cache`: both assignments. */
  function Admit(c: Cache, id: Id, content: Content, importance: real): (r: Cache)
    requires c.entries.Valid() && c.priorities.Valid()
    requires c.entries.values.Keys == c.priorities.values.Keys
    requires Size(c) < c.capacity
    ensures Inv(r)
    ensures r.entries.values == c.entries.values[id := content]
    ensures r.priorities.values == c.priorities.values[id := importance]
    ensures r.capacity == c.capacity
  {
    c.(entries := c.entries.Put(id, content), priorities := c.priorities.Put(id, importance))
  }

  /** A full cache that holds anything holds its victim, and dropping it from both
      dicts leaves room for one entry. */
  function EvictVictim(c: Cache): (r: Cache)
    requires Inv(c) && Size(c) >= c.capacity && |c.priorities.order| > 0
    ensures r.entries.Valid() && r.priorities.Valid()
    ensures r.entries.values.Keys == r.priorities.values.Keys
    ensures Size(r) < r.capacity
    ensures r.entries.values == c.entries.values - {Victim(c)}
    ensures r.priorities.values == c.priorities.values - {Victim(c)}
    ensures r.capacity == c.capacity
  {
    var v := Victim(c);
    assert c.priorities.order[0] in c.entries.values;
    c.(entries := c.entries.Remove(v), priorities := c.priorities.Remove(v))
  }

  /** `_update_cache(id, content, importance)`. On a full cache the key of least
      priority is deleted from both dicts first; `min` over an empty `cache_priorities`
      (only possible when `cache_size <= 0`) raises. */
  function UpdateCache(c: Cache, id: Id, content: Content, importance: real): (r: (Cache, Result<()>))
    requires Inv(c)
    ensures Inv(r.0)
    ensures r.0.capacity == c.capacity
  {
    if Size(c) < c.capacity then (Admit(c, id, content, importance), Success(()))
    else if |c.priorities.order| == 0 then (c, Failure(EmptySequence))
    else (Admit(EvictVictim(c), id, content, importance), Success(()))
  }

  /** `_update_cache` raises only on an empty cache whose `cache_size` is not positive,
      and then changes nothing. */
  lemma UpdateCacheOutcome(c: Cache, id: Id, content: Content, importance: real)
    requires Inv(c)
    ensures var r := UpdateCache(c, id, content, importance);
      && (r.1.Failure? <==> Size(c) == 0 && c.capacity <= 0)
      && (r.1.Failure? ==> r.1.error == EmptySequence && r.0 == c)
  {
    if Size(c) > 0 {
      assert c.entries.order[0] in c.priorities.values;
    }
  }

  /** With a positive `cache_size` the update always succeeds. */
  lemma UpdateCacheSucceeds(c: Cache, id: Id, content: Content, importance: real)
    requires Inv(c) && c.capacity >= 1
    ensures UpdateCache(c, id, content, importance).1.Success?
  {
    UpdateCacheOutcome(c, id, content, importance);
  }

  /** After a successful update the entry and its priority are cached. */
  lemma UpdateCacheStores(c: Cache, id: Id, content: Content, importance: real)
    requires Inv(c)
    requires UpdateCache(c, id, content, importance).1.Success?
    ensures var r := UpdateCache(c, id, content, importance).0;
      && id in r.entries.values && r.entries.values[id] == content
      && id in r.priorities.values && r.priorities.values[id] == importance
  {
  }

  /** Below capacity the key is simply added. */
  lemma UpdateCacheBelowCapacity(c: Cache, id: Id, content: Content, importance: real)
    requires Inv(c) && Size(c) < c.capacity
    ensures var r := UpdateCache(c, id, content, importance);
      && r.1.Success?
      && r.0.entries.values.Keys == c.entries.values.Keys + {id}
      && r.0.priorities.values == c.priorities.values[id := importance]
  {
  }

  /** On a full cache a successful update removes exactly the victim from both dicts,
      then adds the new key. */
  lemma UpdateCacheEvicts(c: Cache, id: Id, content: Content, importance: real)
    requires Inv(c) && Size(c) >= c.capacity
    requires UpdateCache(c, id, content, importance).1.Success?
    ensures |c.priorities.order| > 0
    ensures var r := UpdateCache(c, id, content, importance).0;
      && r.entries.values.Keys == c.entries.values.Keys - {Victim(c)} + {id}
      && r.priorities.values == (c.priorities.values - {Victim(c)})[id := importance]
  {
  }

  /** Admitting `id` touches no other entry. */
  lemma AdmitKeepsOthers(c: Cache, id: Id, content: Content, importance: real)
    requires c.entries.Valid() && c.priorities.Valid()
    requires c.entries.values.Keys == c.priorities.values.Keys
    requires Size(c) < c.capacity
    ensures var r := Admit(c, id, content, importance);
      forall k :: k in r.entries.values && k != id ==>
        k in c.entries.values && r.entries.values[k] == c.entries.values[k]
  {
  }

  /** A successful update leaves every other surviving entry as it was. */
  lemma UpdateCacheKeepsOthers(c: Cache, id: Id, content: Content, importance: real)
    requires Inv(c)
    requires UpdateCache(c, id, content, importance).1.Success?
    ensures var r := UpdateCache(c, id, content, importance).0;
      forall k :: k in r.entries.values && k != id ==>
        k in c.entries.values && r.entries.values[k] == c.entries.values[k]
  {
    if Size(c) < c.capacity {
      AdmitKeepsOthers(c, id, content, importance);
    } else {
      AdmitKeepsOthers(EvictVictim(c), id, content, importance);
    }
  }

  // Ties, concretely: a full cache of size 2 holding "a" then "b", both of priority 0.5.

  const TwoTied := Cache(2, Dict(["a", "b"], map["a" := "A", "b" := "B"]),
                            Dict(["a", "b"], map["a" := 0.5, "b" := 0.5]))

  /** Of two equal priorities, the first inserted is the victim. */
  lemma TieVictimIsFirst()
    ensures Inv(TwoTied) && Victim(TwoTied) == "a"
  {
    assert PriorityKeys(TwoTied, ["a", "b"]) == [Key(0.5, 0), Key(0.5, 0)];
  }

  /** Storing "c" evicts "a" and keeps "b". */
  lemma TieEvictsEarliest()
    ensures Inv(TwoTied)
    ensures var r := UpdateCache(TwoTied, "c", "C", 0.9).0;
      r.entries.values.Keys == {"b", "c"}
  {
    TieVictimIsFirst();
    UpdateCacheEvicts(TwoTied, "c", "C", 0.9);
  }
}

=== FILE: memory_backup.dfy ===
/** `MemoryBackup` (src/mar_disrupcion/core/memory_backup.py): snapshots of the live
    store in a backup directory, restore with rollback to a safety snapshot, and
    keep-N rotation.

    A snapshot file is named by the second it was taken (`%Y%m%d_%H%M%S`), so a file
    name is a `Path`: that stamp and whether it is the plain `.db` or the compressed
    `.db.gz`. Compression and SQLite's page copy are the identity on contents. Two
    calls in the same second use the same names, and the model keeps the overwrites
    that follow from that.
 */
module MemoryBackup {
  import opened Results
  import opened Ranking
  import opened OrderedMaps
  import opened MemoryStore

  /** `memory_backup_<stamp>.db` or `memory_backup_<stamp>.db.gz`. */
  datatype Path = Plain(stamp: int) | Gz(stamp: int)

  /** What a database file holds. `sqlite3.connect` on a missing path creates a file
      with no tables at all, on which every query of the store raises
      `no such table` until `_init_database` runs again. */
  datatype DbFile = NoTables | Holds(db: Db)

  datatype File = File(data: DbFile, mtime: int)

  /** The live database file and the backup directory. */
  datatype Store = Store(live: DbFile, dir: map<Path, File>)

  // ---------------------------------------------------------------- create

  /** `create_backup(compress)` at second `now`: the live store is copied to the plain
      file, which with `compress` is then replaced by the `.gz` file. */
  function CreateBackup(s: Store, now: int, compress: bool): (r: (Store, Path))
    ensures r.0.live == s.live
    ensures r.1 == if compress then Gz(now) else Plain(now)
    ensures r.1 in r.0.dir && r.0.dir[r.1] == File(s.live, now)
    ensures compress ==> Plain(now) !in r.0.dir
    ensures !compress && Gz(now) in s.dir ==> Gz(now) in r.0.dir && r.0.dir[Gz(now)] == s.dir[Gz(now)]
    ensures forall p :: p in s.dir && p != Plain(now) && p != Gz(now) ==> p in r.0.dir && r.0.dir[p] == s.dir[p]
    ensures forall p :: p in r.0.dir ==> p in s.dir || p == r.1
  {
    var written := s.dir[Plain(now) := File(s.live, now)];
    if compress then
      (s.(dir := (written - {Plain(now)})[Gz(now) := File(s.live, now)]), Gz(now))
    else
      (s.(dir := written), Plain(now))
  }

  // ---------------------------------------------------------------- restore

  /** What the environment decides during one `restore_backup` call: the clock reading
      (used for every file written in that call) and whether the page copy into the
      live store succeeds. */
  datatype Step = Step(clock: int, copyOk: bool)

  /** Lines 58-63: a `.gz` snapshot is decompressed next to itself, to the plain name
      with the same stamp, and the copy then reads that; a plain snapshot is read as
      it is. A missing `.gz` file raises. */
  function Decompress(s: Store, p: Path, now: int): (r: Result<(Store, Path)>)
    ensures p.Plain? ==> r == Success((s, p))
    ensures p.Gz? && p !in s.dir ==> r == Failure(FileNotFound)
    ensures p.Gz? && p in s.dir ==>
      && r.Success? && r.value.1 == Plain(p.stamp) && r.value.0.live == s.live
      && Plain(p.stamp) in r.value.0.dir && r.value.0.dir[Plain(p.stamp)] == File(s.dir[p].data, now)
      && (forall q :: q in s.dir && q != Plain(p.stamp) ==> q in r.value.0.dir && r.value.0.dir[q] == s.dir[q])
  {
    if p.Plain? then Success((s, p))
    else if p !in s.dir then Failure(FileNotFound)
    else Success((s.(dir := s.dir[Plain(p.stamp) := File(s.dir[p].data, now)]), Plain(p.stamp)))
  }

  /** Lines 70-72: `sqlite3.connect(source)` creates a file without tables when the
      source is missing, and the page copy makes the live store equal to the source. */
  function CopyIn(s: Store, source: Path, now: int): (r: Store)
    ensures r.live == if source in s.dir then s.dir[source].data else NoTables
    ensures source in r.dir
    ensures forall q :: q in s.dir ==> q in r.dir && r.dir[q] == s.dir[q]
  {
    if source in s.dir then s.(live := s.dir[source].data)
    else Store(NoTables, s.dir[source := File(NoTables, now)])
  }

  /** `restore_backup(p)`, each call (the rollback is a call of its own) consuming one
      environment step.
      - After decompressing, a safety snapshot of the live store is taken.
      - The copy then runs. Only the `.gz` branch binds `temp_path`, so for a plain
        snapshot line 77 raises even after a good copy. Either failure rolls back by
        restoring the safety snapshot, and the result is `False`.
      - The decompressed file is never removed, since the guard at line 77 compares
        `temp_path` with itself.
      Running out of steps stands for the interpreter's recursion limit. */
  function Restore(s: Store, p: Path, env: seq<Step>): (r: (Store, Result<bool>))
    ensures |env| == 0 ==> r == (s, Failure(RecursionLimit))
    ensures p.Gz? && p !in s.dir ==> r.0 == s && r.1.Failure?
    ensures p.Plain? ==> r.1 != Success(true)
    ensures r.1 == Success(true) ==>
      && p.Gz? && p in s.dir && |env| > 0 && env[0].copyOk
      && r.0.live == if env[0].clock == p.stamp then NoTables else s.dir[p].data
    decreases |env|
  {
    if |env| == 0 then (s, Failure(RecursionLimit))
    else
      var now := env[0].clock;
      var unpacked := Decompress(s, p, now);
      if unpacked.Failure? then (s, Failure(unpacked.error))
      else
        var source := unpacked.value.1;
        var safety := CreateBackup(unpacked.value.0, now, true);
        if env[0].copyOk && p.Gz? then
          (CopyIn(safety.0, source, now), Success(true))
        else
          var overwritten := if env[0].copyOk then CopyIn(safety.0, source, now) else safety.0;
          var back := Restore(overwritten, safety.1, env[1..]);
          (back.0, if back.1.Failure? then Failure(back.1.error) else Success(false))
  }

  /** A `.gz` snapshot taken in another second restores: the live store becomes the
      snapshot, a safety snapshot of the previous state is kept, and the decompressed
      file stays behind. */
  lemma RestoreGz(s: Store, p: Path, env: seq<Step>)
    requires p.Gz? && p in s.dir
    requires |env| > 0 && env[0].copyOk && env[0].clock != p.stamp
    ensures var r := Restore(s, p, env);
      && r.1 == Success(true)
      && r.0.live == s.dir[p].data
      && Gz(env[0].clock) in r.0.dir && r.0.dir[Gz(env[0].clock)].data == s.live
      && Plain(p.stamp) in r.0.dir && r.0.dir[Plain(p.stamp)].data == s.dir[p].data
  {
  }

  /** Whenever the first attempt does not end in `True` (a plain snapshot, or a failed
      copy) and the rollback runs in a later second than the attempt, the call returns
      `False` with the live store as it was before the call. In the same second it
      does not: see `SameSecondRollbackWipes`. */
  lemma RestoreRollsBack(s: Store, p: Path, env: seq<Step>)
    requires p.Gz? ==> p in s.dir
    requires |env| >= 2 && !(env[0].copyOk && p.Gz?)
    requires env[1].copyOk && env[1].clock != env[0].clock
    ensures var r := Restore(s, p, env);
      r.1 == Success(false) && r.0.live == s.live
  {
    var now := env[0].clock;
    var unpacked := Decompress(s, p, now);
    var safety := CreateBackup(unpacked.value.0, now, true);
    var overwritten := if env[0].copyOk then CopyIn(safety.0, unpacked.value.1, now) else safety.0;
    assert Gz(now) in overwritten.dir && overwritten.dir[Gz(now)].data == s.live;
    RestoreGz(overwritten, Gz(now), env[1..]);
  }

  /** A plain `.db` snapshot never restores: at best the call rolls back. */
  lemma RestorePlainNeverSucceeds(s: Store, stamp: int, env: seq<Step>)
    ensures Restore(s, Plain(stamp), env).1 != Success(true)
  {
  }

  /** Restoring a `.gz` snapshot in the second it was taken wipes the live store. The
      safety snapshot reuses the snapshot's names: it overwrites the `.gz` file with
      the current state and deletes the decompressed file, which the copy then
      recreates without tables. The call still returns `True`. */
  lemma SameSecondRestoreWipes(s: Store, t: int, env: seq<Step>)
    requires Gz(t) in s.dir && |env| > 0 && env[0] == Step(t, true)
    ensures var r := Restore(s, Gz(t), env);
      && r.1 == Success(true)
      && r.0.live == NoTables
      && r.0.dir[Gz(t)].data == s.live
  {
  }

  /** A rollback in the same second as the failed attempt (the usual case, since it
      runs right after it) restores the safety snapshot in the second it was taken,
      so it wipes the live store as `SameSecondRestoreWipes` does. The call returns
      `False` and leaves a live file without tables. */
  lemma SameSecondRollbackWipes(s: Store, p: Path, env: seq<Step>)
    requires p.Gz? ==> p in s.dir
    requires |env| >= 2 && !(env[0].copyOk && p.Gz?)
    requires env[1] == Step(env[0].clock, true)
    ensures var r := Restore(s, p, env);
      r.1 == Success(false) && r.0.live == NoTables
  {
    var now := env[0].clock;
    var unpacked := Decompress(s, p, now);
    var safety := CreateBackup(unpacked.value.0, now, true);
    var overwritten := if env[0].copyOk then CopyIn(safety.0, unpacked.value.1, now) else safety.0;
    assert Gz(now) in overwritten.dir;
    SameSecondRestoreWipes(overwritten, now, env[1..]);
  }

  /** Back up at `t1`, change the live store in any way, restore at another second:
      the live store is the backed-up one again. */
  lemma BackupRestoreRoundTrip(s: Store, t1: int, changed: DbFile, env: seq<Step>)
    requires |env| > 0 && env[0].copyOk && env[0].clock != t1
    ensures var b := CreateBackup(s, t1, true);
      var r := Restore(b.0.(live := changed), b.1, env);
      r.1 == Success(true) && r.0.live == s.live
  {
    var b := CreateBackup(s, t1, true);
    RestoreGz(b.0.(live := changed), b.1, env);
  }

  // ---------------------------------------------------------------- rotation

  /** The sort key of `_cleanup_old_backups`: the file's mtime. */
  function MTime(dir: map<Path, File>): Path -> Key {
    (p: Path) => Key(0.0, if p in dir then dir[p].mtime else 0)
  }

  /** Where Python's `xs[k:]` starts in a list of length `n`: a negative `k` counts
      from the end, and both ends are clipped. */
  function SliceStart(n: nat, k: int): (i: nat)
    ensures i <= n
    ensures k >= 0 ==> i == if k < n then k else n
    ensures k < 0 ==> i == if n + k > 0 then n + k else 0
  {
    if k >= 0 then (if k < n then k else n)
    else if n + k > 0 then n + k else 0
  }

  /** The files `_cleanup_old_backups(keep)` keeps: the first `keep` of the listing
      sorted newest first (Python slice semantics for `keep`). They are newest first,
      drawn from the listing, min(keep, n) of them for a non-negative `keep` (for a
      negative one, all but the oldest `-keep`), and no listed file left out is newer
      than a kept one. */
  function KeptBackups(dir: map<Path, File>, listing: seq<Path>, keep: int): (kept: seq<Path>)
    ensures SortedDesc(kept, MTime(dir))
    ensures multiset(kept) <= multiset(listing)
    ensures keep >= 0 ==> |kept| == if keep < |listing| then keep else |listing|
    ensures keep < 0 ==> |kept| == if |listing| + keep > 0 then |listing| + keep else 0
    ensures forall p, q :: p in listing && p !in kept && q in kept ==>
      KeyLe(MTime(dir)(p), MTime(dir)(q))
  {
    var n := SliceStart(|listing|, keep);
    var kept := TopN(listing, MTime(dir), n);
    forall p | p in listing && p !in kept ensures forall q :: q in kept ==> KeyLe(MTime(dir)(p), MTime(dir)(q)) {
      TopNIsTop(listing, MTime(dir), n, p);
    }
    kept
  }

  /** `_cleanup_old_backups(keep)`, where `listing` is the order in which the glob
      lists the directory (every file exactly once): every file after the first
      `keep` of the listing sorted newest first is deleted. */
  function CleanupOldBackups(dir: map<Path, File>, listing: seq<Path>, keep: int): (r: map<Path, File>)
    requires Distinct(listing)
    requires forall p :: p in listing ==> p in dir
    requires forall p :: p in dir ==> p in listing
    ensures forall p :: p in r ==> p in dir && r[p] == dir[p] && p in KeptBackups(dir, listing, keep)
    ensures forall p :: p in KeptBackups(dir, listing, keep) ==> p in r
    ensures keep >= 0 ==> |KeptBackups(dir, listing, keep)| == if keep < |listing| then keep else |listing|
    ensures forall p, q :: p in dir && p !in r && q in r ==> dir[p].mtime <= dir[q].mtime
  {
    var kept := KeptBackups(dir, listing, keep);
    forall p | p in kept ensures p in dir {
      assert p in multiset(listing);
    }
    var r := map p | p in dir && p in kept :: dir[p];
    forall p, q | p in dir && p !in r && q in r ensures dir[p].mtime <= dir[q].mtime {
      assert p in listing && p !in kept && q in kept;
      assert KeyLe(MTime(dir)(p), MTime(dir)(q));
    }
    r
  }
}

=== FILE: memory_optimizer.dfy ===
/** `MemoryOptimizer` (src/mar_disrupcion/core/memory_optimizer.py): the composite
    indexes it creates on construction, and retention pruning with removal of the
    relations it orphans. `ANALYZE` and `VACUUM` change no row and are not modelled.
 */
module MemoryOptimizer {
  import opened Ranking
  import opened MemoryStore

  /** `timedelta(days=1)` in seconds. */
  const SecondsPerDay := 86400

  /** Records at least this important are never pruned. */
  const KeepImportance := 0.8

  /** The default of `retention_days`. */
  const DefaultRetentionDays := 30

  // ---------------------------------------------------------------- indexes

  /** The four indexes `_create_indexes` declares, by name. */
  const IndexNames := ["idx_cat_time", "idx_imp_time", "idx_last_accessed", "idx_relations"]

  /** `_create_indexes`: four `CREATE INDEX IF NOT EXISTS` statements. */
  function CreateIndexes(db: Db): (r: Db)
    ensures r.memories == db.memories && r.relations == db.relations
    ensures forall i :: 0 <= i < |IndexNames| ==> IndexNames[i] in r.indexes
    ensures forall n :: n in db.indexes ==> n in r.indexes && r.indexes[n] == db.indexes[n]
    ensures forall n :: n in r.indexes ==> n in db.indexes || n in IndexNames
  {
    var r1 := CreateIndex(db, "idx_cat_time", IndexDef("memories", ["category", "timestamp"]));
    var r2 := CreateIndex(r1, "idx_imp_time", IndexDef("memories", ["importance", "timestamp"]));
    var r3 := CreateIndex(r2, "idx_last_accessed", IndexDef("memories", ["last_accessed"]));
    CreateIndex(r3, "idx_relations", IndexDef("memory_relations", ["source_id", "target_id", "strength"]))
  }

  /** Creating the indexes a second time changes nothing. */
  lemma CreateIndexesIdempotent(db: Db)
    ensures CreateIndexes(CreateIndexes(db)) == CreateIndexes(db)
  {
    var r := CreateIndexes(db);
    assert "idx_cat_time" in r.indexes && "idx_imp_time" in r.indexes;
    assert "idx_last_accessed" in r.indexes && "idx_relations" in r.indexes;
  }

  // ---------------------------------------------------------------- pruning

  /** `datetime.now() - timedelta(days=retention_days)`, in seconds. */
  function Cutoff(now: int, retentionDays: int): int {
    now - retentionDays * SecondsPerDay
  }

  /** The WHERE clause of the first DELETE: old and not important. */
  predicate Stale(m: Memory, cutoff: int) {
    m.timestamp < cutoff && m.importance < KeepImportance
  }

  /** The WHERE clause of the second DELETE, negated: both endpoints exist in `ids`. */
  predicate Attached(e: Relation, ids: set<Id>) {
    e.source in ids && e.target in ids
  }

  /** `clean_old_memories(retention_days)` at time `now`: one transaction deleting
      the stale records, then every relation with an endpoint missing afterwards,
      whether this call orphaned it or it was dangling before. */
  function CleanOldMemories(db: Db, now: int, retentionDays: int): (r: Db)
    ensures forall i :: 0 <= i < |r.memories| ==>
      r.memories[i] in db.memories && !Stale(r.memories[i], Cutoff(now, retentionDays))
    ensures forall i :: 0 <= i < |db.memories| && !Stale(db.memories[i], Cutoff(now, retentionDays)) ==>
      db.memories[i] in r.memories
    ensures forall i :: 0 <= i < |r.relations| ==> r.relations[i] in db.relations
    ensures forall i :: 0 <= i < |db.relations| && Attached(db.relations[i], Ids(r)) ==>
      db.relations[i] in r.relations
    ensures NoDangling(r)
    ensures r.indexes == db.indexes
  {
    var cutoff := Cutoff(now, retentionDays);
    var kept := db.(memories := Filter(db.memories, (m: Memory) => !Stale(m, cutoff)));
    var ids := Ids(kept);
    var r := kept.(relations := Filter(db.relations, (e: Relation) => Attached(e, ids)));
    assert Ids(r) == ids;
    r
  }

  /** A record survives pruning exactly when it is recent or important enough. */
  lemma CleanKeepsExactly(db: Db, now: int, retentionDays: int, m: Memory)
    requires m in db.memories
    ensures m in CleanOldMemories(db, now, retentionDays).memories <==>
      m.timestamp >= Cutoff(now, retentionDays) || m.importance >= KeepImportance
  {
    var r := CleanOldMemories(db, now, retentionDays);
    if m in r.memories {
      var i :| 0 <= i < |r.memories| && r.memories[i] == m;
    } else {
      var i :| 0 <= i < |db.memories| && db.memories[i] == m;
    }
  }

  /** Pruning twice at the same time is pruning once. */
  lemma CleanIdempotent(db: Db, now: int, retentionDays: int)
    ensures var r := CleanOldMemories(db, now, retentionDays);
      CleanOldMemories(r, now, retentionDays) == r
  {
    var r := CleanOldMemories(db, now, retentionDays);
    var cutoff := Cutoff(now, retentionDays);
    FilterAll(r.memories, (m: Memory) => !Stale(m, cutoff));
    FilterAll(r.relations, (e: Relation) => Attached(e, Ids(r)));
  }
}

=== FILE: memory_store.dfy ===
/** The persistent store shared by both `AdvancedMemorySystem` classes: the `memories`
    and `memory_relations` tables and the SQL each class runs against them.

    A table is the sequence of its rows. SQLite is not asked to order anything beyond
    the ORDER BY keys, so the model sorts stably over row order and the contracts
    promise only the ORDER BY order, the WHERE filter and the LIMIT.
 */
module MemoryStore {
  import opened Results
  import opened Ranking

  type Id = string
  /** A stored payload; pickling it and unpickling it is the identity here. */
  type Content = string
  type Embedding = seq<real>

  datatype Memory = Memory(
    id: Id,
    category: string,
    content: Content,
    importance: real,
    timestamp: int,
    lastAccessed: int,
    accessCount: nat,
    embedding: Embedding)

  datatype Relation = Relation(source: Id, target: Id, relationType: string, strength: real)

  datatype IndexDef = IndexDef(table: string, columns: seq<string>)

  /** A whole database file: both tables and the named indexes. */
  datatype Db = Db(memories: seq<Memory>, relations: seq<Relation>, indexes: map<string, IndexDef>)

  function Ids(db: Db): set<Id> {
    set i | 0 <= i < |db.memories| :: db.memories[i].id
  }

  function EdgeKeys(db: Db): set<(Id, Id)> {
    set i | 0 <= i < |db.relations| :: (db.relations[i].source, db.relations[i].target)
  }

  /** The PRIMARY KEY constraints of both tables. */
  predicate WellFormed(db: Db) {
    && (forall i, j :: 0 <= i < j < |db.memories| ==> db.memories[i].id != db.memories[j].id)
    && (forall i, j :: 0 <= i < j < |db.relations| ==>
          (db.relations[i].source, db.relations[i].target) != (db.relations[j].source, db.relations[j].target))
  }

  /** No relation refers to a record that is not in the store. */
  predicate NoDangling(db: Db) {
    forall i :: 0 <= i < |db.relations| ==>
      db.relations[i].source in Ids(db) && db.relations[i].target in Ids(db)
  }

  /** The row with the given id, if any. */
  function Find(memories: seq<Memory>, id: Id): (r: Option<Memory>)
    ensures r.Some? ==> r.value in memories && r.value.id == id
    ensures r.None? ==> forall i :: 0 <= i < |memories| ==> memories[i].id != id
  {
    if |memories| == 0 then None
    else if memories[0].id == id then Some(memories[0])
    else Find(memories[1..], id)
  }

  lemma {:induction false} FindUnique(memories: seq<Memory>, k: nat)
    requires forall i, j :: 0 <= i < j < |memories| ==> memories[i].id != memories[j].id
    requires k < |memories|
    ensures Find(memories, memories[k].id) == Some(memories[k])
  {
    if k > 0 {
      FindUnique(memories[1..], k - 1);
    }
  }

  // ---------------------------------------------------------------- schema

  /** `CREATE INDEX IF NOT EXISTS name ON def`: an existing index of that name wins. */
  function CreateIndex(db: Db, name: string, def: IndexDef): (r: Db)
    ensures r.memories == db.memories && r.relations == db.relations
    ensures name in r.indexes
    ensures name in db.indexes ==> r.indexes == db.indexes
    ensures name !in db.indexes ==> r.indexes == db.indexes[name := def]
  {
    if name in db.indexes then db else db.(indexes := db.indexes[name := def])
  }

  /** `_init_database`: both tables (modelled as always present) and three indexes. */
  function InitDatabase(db: Db): (r: Db)
    ensures r.memories == db.memories && r.relations == db.relations
    ensures "idx_category" in r.indexes && "idx_importance" in r.indexes && "idx_timestamp" in r.indexes
    ensures forall n :: n in db.indexes ==> n in r.indexes && r.indexes[n] == db.indexes[n]
    ensures "idx_category" in db.indexes && "idx_importance" in db.indexes && "idx_timestamp" in db.indexes ==> r == db
  {
    var r1 := CreateIndex(db, "idx_category", IndexDef("memories", ["category"]));
    var r2 := CreateIndex(r1, "idx_importance", IndexDef("memories", ["importance"]));
    CreateIndex(r2, "idx_timestamp", IndexDef("memories", ["timestamp"]))
  }

  // ---------------------------------------------------------------- store

  /** Python truthiness of `related_to`: None and "" both skip the relation. */
  predicate Linked(relatedTo: Option<Id>) {
    relatedTo.Some? && relatedTo.value != ""
  }

  /** The record a `store_memory` call writes: never accessed yet, so its
      `last_accessed` is its creation time and its count is zero. */
  function NewRecord(id: Id, category: string, content: Content, importance: real,
                     now: int, embedding: Embedding): (m: Memory)
    ensures m.id == id && m.content == content && m.importance == importance
    ensures m.accessCount == 0 && m.lastAccessed == m.timestamp == now
  {
    Memory(id, category, content, importance, now, now, 0, embedding)
  }

  /** The single transaction of `store_memory`: INSERT the record, then, when
      `related_to` is truthy, INSERT the edge `(id, related_to, 'related', importance)`.
      Either INSERT failing on its PRIMARY KEY rolls both back. The target is NOT checked:
      SQLite does not enforce the declared FOREIGN KEY. */
  function InsertMemory(db: Db, id: Id, category: string, content: Content, importance: real,
                        now: int, embedding: Embedding, relatedTo: Option<Id>): (r: Result<Db>)
    ensures r.Success? <==>
      id !in Ids(db) && !(Linked(relatedTo) && (id, relatedTo.value) in EdgeKeys(db))
    ensures r.Failure? ==> r.error == IntegrityError
    ensures r.Success? ==>
      && db.memories <= r.value.memories
      && |r.value.memories| == |db.memories| + 1
      && r.value.memories[|db.memories|] == NewRecord(id, category, content, importance, now, embedding)
      && Ids(r.value) == Ids(db) + {id}
      && r.value.indexes == db.indexes
    ensures r.Success? && !Linked(relatedTo) ==> r.value.relations == db.relations
    ensures r.Success? && Linked(relatedTo) ==>
      && db.relations <= r.value.relations
      && |r.value.relations| == |db.relations| + 1
      && r.value.relations[|db.relations|] == Relation(id, relatedTo.value, "related", importance)
    ensures r.Success? && WellFormed(db) ==> WellFormed(r.value)
  {
    if id in Ids(db) then Failure(IntegrityError)
    else
      var rec := NewRecord(id, category, content, importance, now, embedding);
      var withRecord := db.(memories := db.memories + [rec]);
      assert Ids(withRecord) == Ids(db) + {id} by {
        assert forall i :: 0 <= i < |db.memories| ==> withRecord.memories[i] == db.memories[i];
        assert withRecord.memories[|db.memories|] == rec;
      }
      if !Linked(relatedTo) then Success(withRecord)
      else if (id, relatedTo.value) in EdgeKeys(db) then Failure(IntegrityError)
      else
        Success(withRecord.(relations := db.relations + [Relation(id, relatedTo.value, "related", importance)]))
  }

  // ---------------------------------------------------------------- retrieve

  /** The WHERE clause of the main retrieve query. */
  predicate Qualifies(m: Memory, category: string, minImportance: real, retentionLimit: int) {
    m.category == category && m.importance >= minImportance && m.timestamp >= retentionLimit
  }

  /** `ORDER BY importance DESC, last_accessed DESC`. */
  function Rank(m: Memory): Key {
    Key(m.importance, m.lastAccessed)
  }

  /** The rows the WHERE clause of the main retrieve query admits, in table order. */
  function Candidates(db: Db, category: string, minImportance: real, retentionLimit: int): (c: seq<Memory>)
    ensures forall i :: 0 <= i < |c| ==> c[i] in db.memories && Qualifies(c[i], category, minImportance, retentionLimit)
    ensures forall m :: m in db.memories && Qualifies(m, category, minImportance, retentionLimit) ==> m in c
    ensures multiset(c) <= multiset(db.memories)
  {
    var c := Filter(db.memories, (x: Memory) => Qualifies(x, category, minImportance, retentionLimit));
    forall m | m in db.memories && Qualifies(m, category, minImportance, retentionLimit) ensures m in c {
      var k :| 0 <= k < |db.memories| && db.memories[k] == m;
    }
    c
  }

  /** The main SELECT of `retrieve_memories`: the qualifying rows, ordered by `Rank`
      descending, cut to `limit`. */
  function SelectMemories(db: Db, category: string, minImportance: real,
                          retentionLimit: int, limit: int): (rows: seq<Memory>)
    ensures var c := Candidates(db, category, minImportance, retentionLimit);
      && (limit >= 0 ==> |rows| == if limit < |c| then limit else |c|)
      && (limit < 0 ==> multiset(rows) == multiset(c))
    ensures forall i :: 0 <= i < |rows| ==>
      rows[i] in db.memories && Qualifies(rows[i], category, minImportance, retentionLimit)
    ensures SortedDesc(rows, Rank)
    ensures multiset(rows) <= multiset(db.memories)
  {
    var candidates := Candidates(db, category, minImportance, retentionLimit);
    TopN(candidates, Rank, limit)
  }

  /** The SELECT returns a top-`limit`: a qualifying row left out ranks no higher
      than any row returned. */
  lemma SelectIsTop(db: Db, category: string, minImportance: real, retentionLimit: int, limit: int, m: Memory)
    requires m in db.memories && Qualifies(m, category, minImportance, retentionLimit)
    requires m !in SelectMemories(db, category, minImportance, retentionLimit, limit)
    ensures forall y :: y in SelectMemories(db, category, minImportance, retentionLimit, limit) ==>
      KeyLe(Rank(m), Rank(y))
  {
    TopNIsTop(Candidates(db, category, minImportance, retentionLimit), Rank, limit, m);
  }

  /** When no more rows qualify than `limit` allows (or the limit is negative), every
      qualifying row is returned. */
  lemma SelectTakesAllThatFit(db: Db, category: string, minImportance: real, retentionLimit: int, limit: int, m: Memory)
    requires m in db.memories && Qualifies(m, category, minImportance, retentionLimit)
    requires limit < 0 || |Candidates(db, category, minImportance, retentionLimit)| <= limit
    ensures m in SelectMemories(db, category, minImportance, retentionLimit, limit)
  {
    TopNTakesAllThatFit(Candidates(db, category, minImportance, retentionLimit), Rank, limit, m);
  }

  /** Against a store of one row that qualifies, the SELECT returns that row. */
  lemma SelectOnly(db: Db, category: string, minImportance: real, retentionLimit: int, limit: int)
    requires |db.memories| == 1 && Qualifies(db.memories[0], category, minImportance, retentionLimit)
    requires limit >= 1
    ensures SelectMemories(db, category, minImportance, retentionLimit, limit) == db.memories
  {
    var rows := SelectMemories(db, category, minImportance, retentionLimit, limit);
    var candidates := Candidates(db, category, minImportance, retentionLimit);
    assert |multiset(candidates)| <= |multiset(db.memories)|;
    SelectTakesAllThatFit(db, category, minImportance, retentionLimit, limit, db.memories[0]);
    assert |multiset(rows)| <= |multiset(db.memories)|;
  }

  /** `context_size or self.context_depth`: None and 0 fall back to the depth. */
  function ContextLimit(contextSize: Option<int>, contextDepth: int): (n: int)
    ensures contextSize.Some? && contextSize.value != 0 ==> n == contextSize.value
    ensures contextSize.None? || contextSize.value == 0 ==> n == contextDepth
  {
    if contextSize.Some? && contextSize.value != 0 then contextSize.value else contextDepth
  }

  /** A related record as `retrieve_memories` reports it. */
  datatype Related = Related(id: Id, content: Content, importance: real)

  /** `memories m JOIN memory_relations r ON m.id = r.target_id WHERE r.source_id = ?`:
      an inner join, so an edge whose target is missing yields no row. */
  function Join(memories: seq<Memory>, relations: seq<Relation>, source: Id): (rows: seq<(Relation, Memory)>)
    ensures forall i :: 0 <= i < |rows| ==>
      rows[i].0 in relations && rows[i].0.source == source
      && rows[i].1 in memories && rows[i].1.id == rows[i].0.target
    ensures forall i :: 0 <= i < |relations| ==>
      (relations[i].source == source && Find(memories, relations[i].target).Some? ==>
         (relations[i], Find(memories, relations[i].target).value) in rows)
  {
    if |relations| == 0 then []
    else
      var rest := Join(memories, relations[1..], source);
      var r := relations[0];
      assert forall i :: 1 <= i < |relations| ==> relations[i] == relations[1..][i - 1];
      if r.source == source && Find(memories, r.target).Some? then [(r, Find(memories, r.target).value)] + rest
      else rest
  }

  function Strength(row: (Relation, Memory)): Key {
    Key(row.0.strength, 0)
  }

  /** The related-memories query: outgoing edges of `source` whose target exists,
      ordered by strength descending, cut to `n`. With a negative `n` it is a
      permutation of the join, otherwise exactly min(n, |join|) of its rows. */
  function RelatedRows(db: Db, source: Id, n: int): (rows: seq<(Relation, Memory)>)
    ensures var joined := Join(db.memories, db.relations, source);
      && (n >= 0 ==> |rows| == if n < |joined| then n else |joined|)
      && (n < 0 ==> multiset(rows) == multiset(joined))
      && multiset(rows) <= multiset(joined)
    ensures SortedDesc(rows, Strength)
    ensures forall i :: 0 <= i < |rows| ==>
      rows[i].0 in db.relations && rows[i].0.source == source
      && rows[i].1 in db.memories && rows[i].1.id == rows[i].0.target
  {
    TopN(Join(db.memories, db.relations, source), Strength, n)
  }

  /** The row the join produces for an edge whose target exists. */
  function JoinedRow(db: Db, e: Relation): (row: (Relation, Memory))
    requires Find(db.memories, e.target).Some?
    ensures row.0 == e && row.1 in db.memories && row.1.id == e.target
  {
    (e, Find(db.memories, e.target).value)
  }

  /** The related list is a top-`n` by strength: an edge out of `source` with an
      existing target that is left out is no stronger than any edge listed. */
  lemma RelatedRowsIsTop(db: Db, source: Id, n: int, e: Relation)
    requires e in db.relations && e.source == source && Find(db.memories, e.target).Some?
    requires JoinedRow(db, e) !in RelatedRows(db, source, n)
    ensures forall y :: y in RelatedRows(db, source, n) ==> y.0.strength >= e.strength
  {
    var k :| 0 <= k < |db.relations| && db.relations[k] == e;
    TopNIsTop(Join(db.memories, db.relations, source), Strength, n, JoinedRow(db, e));
  }

  /** When the edges out of `source` with an existing target fit in `n` (or `n` is
      negative), every one of them is listed. */
  lemma RelatedRowsTakesAllThatFit(db: Db, source: Id, n: int, e: Relation)
    requires e in db.relations && e.source == source && Find(db.memories, e.target).Some?
    requires n < 0 || |Join(db.memories, db.relations, source)| <= n
    ensures JoinedRow(db, e) in RelatedRows(db, source, n)
  {
    var k :| 0 <= k < |db.relations| && db.relations[k] == e;
    TopNTakesAllThatFit(Join(db.memories, db.relations, source), Strength, n, JoinedRow(db, e));
  }

  function ToRelated(rows: seq<(Relation, Memory)>): (out: seq<Related>)
    ensures |out| == |rows|
    ensures forall i :: 0 <= i < |out| ==>
      out[i] == Related(rows[i].1.id, rows[i].1.content, rows[i].1.importance)
  {
    seq(|rows|, i requires 0 <= i < |rows| => Related(rows[i].1.id, rows[i].1.content, rows[i].1.importance))
  }

  /** `after` is `before` with exactly the rows whose id is in `ids` accessed at `now`:
      one more access, `last_accessed` set, every other column and every other row as
      it was. */
  predicate Touched(before: seq<Memory>, after: seq<Memory>, ids: set<Id>, now: int) {
    && |after| == |before|
    && forall i :: 0 <= i < |before| ==>
         && (before[i].id in ids ==>
               after[i] == before[i].(lastAccessed := now, accessCount := before[i].accessCount + 1))
         && (before[i].id !in ids ==> after[i] == before[i])
  }

  /** `UPDATE memories SET last_accessed = now, access_count = access_count + 1`
      for every row whose id is in `ids`. */
  function Touch(memories: seq<Memory>, ids: set<Id>, now: int): (r: seq<Memory>)
    ensures Touched(memories, r, ids, now)
  {
    seq(|memories|, i requires 0 <= i < |memories| =>
      if memories[i].id in ids
      then memories[i].(lastAccessed := now, accessCount := memories[i].accessCount + 1)
      else memories[i])
  }

  /** One element of the list `retrieve_memories` returns. */
  datatype Retrieved = Retrieved(
    id: Id,
    content: Content,
    importance: real,
    timestamp: int,
    accessCount: nat,
    embedding: Embedding,
    related: seq<Related>)

  function IdsOf(rows: seq<Memory>): set<Id> {
    set i | 0 <= i < |rows| :: rows[i].id
  }

  /** `out` reports `rows` one for one, each with its stored count plus one. */
  predicate Reports(out: seq<Retrieved>, rows: seq<Memory>) {
    && |out| == |rows|
    && forall i :: 0 <= i < |rows| ==>
         && out[i].id == rows[i].id
         && out[i].content == rows[i].content
         && out[i].importance == rows[i].importance
         && out[i].timestamp == rows[i].timestamp
         && out[i].accessCount == rows[i].accessCount + 1
         && out[i].embedding == rows[i].embedding
  }

  /** `r` is a record reachable from `source` over an edge of `db` whose target exists. */
  predicate RelatedVia(db: Db, source: Id, r: Related) {
    && (exists e :: e in db.relations && e.source == source && e.target == r.id)
    && (exists m :: m in db.memories && m.id == r.id && m.content == r.content && m.importance == r.importance)
  }

  /** The related list of one result: edges out of `source` with an existing target,
      strongest first, at most `n` of them (see `RelatedRowsIsTop` and
      `RelatedRowsTakesAllThatFit`). */
  function RelatedOf(db: Db, source: Id, n: int): (out: seq<Related>)
    ensures out == ToRelated(RelatedRows(db, source, n))
    ensures n >= 0 ==> |out| <= n
    ensures forall j :: 0 <= j < |out| ==> RelatedVia(db, source, out[j])
  {
    var rows := RelatedRows(db, source, n);
    var out := ToRelated(rows);
    forall j | 0 <= j < |out| ensures RelatedVia(db, source, out[j]) {
      assert rows[j].0 in db.relations && rows[j].1 in db.memories;
    }
    out
  }

  /** On an empty store, a freshly inserted record comes back from a retrieve of its
      category within the retention window, reported with one access. */
  lemma InsertThenRetrieve(db: Db, id: Id, category: string, content: Content, importance: real,
                           now: int, embedding: Embedding, relatedTo: Option<Id>,
                           limit: int, minImportance: real, contextSize: Option<int>, contextDepth: int,
                           retentionPeriod: int, later: int)
    requires db.memories == []
    requires InsertMemory(db, id, category, content, importance, now, embedding, relatedTo).Success?
    requires limit >= 1 && minImportance <= importance && now <= later <= now + retentionPeriod
    ensures var db1 := InsertMemory(db, id, category, content, importance, now, embedding, relatedTo).value;
      var out := RetrieveMemories(db1, category, limit, minImportance, contextSize, contextDepth,
                                  retentionPeriod, later).1;
      |out| == 1 && out[0].id == id && out[0].content == content && out[0].accessCount == 1
  {
    var db1 := InsertMemory(db, id, category, content, importance, now, embedding, relatedTo).value;
    assert db1.memories == [NewRecord(id, category, content, importance, now, embedding)];
    RetrieveOnly(db1, category, limit, minImportance, contextSize, contextDepth, retentionPeriod, later);
  }

  /** Against a store of one row that qualifies, a retrieve reports exactly that row. */
  lemma RetrieveOnly(db: Db, category: string, limit: int, minImportance: real,
                     contextSize: Option<int>, contextDepth: int, retentionPeriod: int, now: int)
    requires |db.memories| == 1 && Qualifies(db.memories[0], category, minImportance, now - retentionPeriod)
    requires limit >= 1
    ensures var out := RetrieveMemories(db, category, limit, minImportance, contextSize, contextDepth,
                                        retentionPeriod, now).1;
      && |out| == 1 && out[0].id == db.memories[0].id && out[0].content == db.memories[0].content
      && out[0].accessCount == db.memories[0].accessCount + 1
  {
    SelectOnly(db, category, minImportance, now - retentionPeriod, limit);
  }

  /** An edge to a record that does not exist is accepted (the FOREIGN KEY is not
      enforced), and no retrieve reports its target: the inner join hides it. */
  lemma InsertDangling(db: Db, id: Id, category: string, content: Content, importance: real,
                       now: int, embedding: Embedding, target: Id,
                       category2: string, limit: int, minImportance: real, contextSize: Option<int>,
                       contextDepth: int, retentionPeriod: int, later: int)
    requires id !in Ids(db) && target != "" && target != id && target !in Ids(db)
    requires (id, target) !in EdgeKeys(db)
    ensures InsertMemory(db, id, category, content, importance, now, embedding, Some(target)).Success?
    ensures var db1 := InsertMemory(db, id, category, content, importance, now, embedding, Some(target)).value;
      && !NoDangling(db1)
      && !ReportsRelated(RetrieveMemories(db1, category2, limit, minImportance, contextSize, contextDepth,
                                          retentionPeriod, later).1, target)
  {
    var db1 := InsertMemory(db, id, category, content, importance, now, embedding, Some(target)).value;
    assert db1.relations[|db.relations|].target == target;
    var out := RetrieveMemories(db1, category2, limit, minImportance, contextSize, contextDepth,
                                retentionPeriod, later).1;
  }

  /** Every related record reported names a record of the store and is the target of
      an edge out of `source`: an edge to a missing record is never reported. */
  lemma RelatedExist(db: Db, source: Id, n: int)
    ensures forall j :: 0 <= j < |RelatedOf(db, source, n)| ==>
      && RelatedOf(db, source, n)[j].id in Ids(db)
      && (source, RelatedOf(db, source, n)[j].id) in EdgeKeys(db)
  {
    var out := RelatedOf(db, source, n);
    var rows := RelatedRows(db, source, n);
    forall j | 0 <= j < |out|
      ensures out[j].id in Ids(db) && (source, out[j].id) in EdgeKeys(db)
    {
      RowInTables(db, source, rows[j]);
    }
  }

  /** A joined row names a stored record over a stored edge out of `source`. */
  lemma RowInTables(db: Db, source: Id, row: (Relation, Memory))
    requires row.0 in db.relations && row.0.source == source
    requires row.1 in db.memories && row.1.id == row.0.target
    ensures row.1.id in Ids(db) && (source, row.1.id) in EdgeKeys(db)
  {
    var a :| 0 <= a < |db.memories| && db.memories[a] == row.1;
    var b :| 0 <= b < |db.relations| && db.relations[b] == row.0;
  }

  /** Some result of `out` reports `target` as a related record. */
  predicate ReportsRelated(out: seq<Retrieved>, target: Id) {
    exists i, j :: 0 <= i < |out| && 0 <= j < |out[i].related| && out[i].related[j].id == target
  }

  /** The list built from the selected `rows`: each record as read, its count as
      incremented, and its related records (at most `n`). */
  function Report(db: Db, rows: seq<Memory>, n: int): (out: seq<Retrieved>)
    ensures Reports(out, rows)
    ensures forall i :: 0 <= i < |out| ==>
      && out[i].related == RelatedOf(db, rows[i].id, n)
      && (n >= 0 ==> |out[i].related| <= n)
      && (forall j :: 0 <= j < |out[i].related| ==> RelatedVia(db, out[i].id, out[i].related[j]))
  {
    seq(|rows|, i requires 0 <= i < |rows| =>
      Retrieved(rows[i].id, rows[i].content, rows[i].importance, rows[i].timestamp,
                rows[i].accessCount + 1, rows[i].embedding, RelatedOf(db, rows[i].id, n)))
  }

  /** `retrieve_memories`: the main query, the related records of each result, and the
      access-statistics update of every returned record (the related records are not
      touched). The related lists are read from the store as it was before the update;
      the update changes neither ids, contents nor importances, which is all they show. */
  function RetrieveMemories(db: Db, category: string, limit: int, minImportance: real,
                            contextSize: Option<int>, contextDepth: int,
                            retentionPeriod: int, now: int): (res: (Db, seq<Retrieved>))
    ensures var rows := SelectMemories(db, category, minImportance, now - retentionPeriod, limit);
      && Reports(res.1, rows)
      && Touched(db.memories, res.0.memories, IdsOf(rows), now)
    ensures res.0.relations == db.relations && res.0.indexes == db.indexes
    ensures limit >= 0 ==> |res.1| <= limit
    ensures forall i :: 0 <= i < |res.1| ==>
      && res.1[i].related == RelatedOf(db, res.1[i].id, ContextLimit(contextSize, contextDepth))
      && (ContextLimit(contextSize, contextDepth) >= 0 ==> |res.1[i].related| <= ContextLimit(contextSize, contextDepth))
      && (forall j :: 0 <= j < |res.1[i].related| ==> RelatedVia(db, res.1[i].id, res.1[i].related[j]))
  {
    var rows := SelectMemories(db, category, minImportance, now - retentionPeriod, limit);
    (db.(memories := Touch(db.memories, IdsOf(rows), now)),
     Report(db, rows, ContextLimit(contextSize, contextDepth)))
  }
}

=== FILE: memory_system.dfy ===
/** The two `AdvancedMemorySystem` classes as wholes: the store they share, each with
    its own cache, and the `store_memory` / `retrieve_memories` calls that drive both.

    `store_memory` runs in three steps. The embedding is computed first; it is a black
    box here and may fail, which aborts the call before anything is written. Then one
    transaction inserts the record and the optional edge. Only after that commit is the
    cache updated, and only when the importance is strictly above the confidence
    threshold. A cache failure therefore surfaces as an error while the record stays
    stored. The record id is a clock reading in the source and a parameter here.
 */
module MemorySystem {
  import opened Results
  import opened MemoryStore
  import PC = PriorityCache
  import LC = LegacyCache

  /** The memory settings both classes read at construction. */
  datatype Settings = Settings(retentionPeriod: int, contextDepth: int, threshold: real, cacheSize: int)

  /** The keyword defaults of the legacy constructor. */
  const LegacyDefaults := Settings(14400, 8, 0.75, 2048)

  /** The embedding model, which may raise. */
  type Embedder = Content -> Option<Embedding>

  // ---------------------------------------------------------------- current class

  /** The current class: the store and its TTL cache, whose `maxsize` is `cache_size`
      and whose `ttl` is `retention_period`. */
  datatype System = System(settings: Settings, db: Db, cache: PC.Cache)

  predicate Inv(s: System) {
    && PC.Inv(s.cache)
    && s.cache.capacity == s.settings.cacheSize
    && s.cache.ttl == s.settings.retentionPeriod
  }

  /** `__init__` and `_init_database` on an existing database file. */
  function Init(settings: Settings, db: Db): (s: System)
    ensures Inv(s) && s.settings == settings
    ensures s.cache.entries.values == map[] && s.cache.priorities.values == map[]
    ensures s.cache.metrics == PC.ZeroMetrics
    ensures s.db.memories == db.memories && s.db.relations == db.relations
  {
    System(settings, InitDatabase(db), PC.NewCache(settings.cacheSize, settings.retentionPeriod))
  }

  /** The part of `store_memory` before the cache: the embedding, then the one
      transaction writing the record and the optional edge. */
  function Commit(db: Db, id: Id, content: Content, category: string, importance: real,
                  relatedTo: Option<Id>, now: int, embed: Embedder): (r: Result<Db>)
    ensures embed(content).None? ==> r == Failure(EmbeddingFailed)
    ensures embed(content).Some? ==>
      r == InsertMemory(db, id, category, content, importance, now, embed(content).value, relatedTo)
  {
    match embed(content)
    case None => Failure(EmbeddingFailed)
    case Some(embedding) => InsertMemory(db, id, category, content, importance, now, embedding, relatedTo)
  }

  /** `store_memory(content, category, importance, related_to)` at time `now`, for the
      id the clock produced. */
  function StoreMemory(s: System, id: Id, content: Content, category: string, importance: real,
                       relatedTo: Option<Id>, now: int, embed: Embedder): (r: (System, Result<Id>))
    requires Inv(s)
    ensures Inv(r.0) && r.0.settings == s.settings
    ensures r.1.Success? ==> r.1.value == id
    ensures embed(content).None? ==> r.0 == s && r.1 == Failure(EmbeddingFailed)
    ensures importance <= s.settings.threshold ==> r.0.cache == s.cache
  {
    var committed := Commit(s.db, id, content, category, importance, relatedTo, now, embed);
    if committed.Failure? then (s, Failure(committed.error))
    else if importance > s.settings.threshold then
      var update := PC.UpdateCache(s.cache, id, content, importance, now);
      (s.(db := committed.value, cache := update.0),
       if update.1.Failure? then Failure(update.1.error) else Success(id))
    else
      (s.(db := committed.value), Success(id))
  }

  /** Each way `store_memory` can end: an embedding failure or a rejected INSERT changes
      nothing; once the transaction commits the record stays, whatever the cache does. */
  lemma StoreOutcome(s: System, id: Id, content: Content, category: string, importance: real,
                     relatedTo: Option<Id>, now: int, embed: Embedder)
    requires Inv(s)
    ensures var r := StoreMemory(s, id, content, category, importance, relatedTo, now, embed);
      embed(content).Some? ==>
        var ins := InsertMemory(s.db, id, category, content, importance, now, embed(content).value, relatedTo);
        && (ins.Failure? ==> r.0 == s && r.1 == Failure(IntegrityError))
        && (ins.Success? ==> r.0.db == ins.value && id in Ids(r.0.db))
        && (ins.Success? && importance <= s.settings.threshold ==> r.1.Success?)
        && (ins.Success? && importance > s.settings.threshold ==>
              (r.1.Success? <==> PC.UpdateCache(s.cache, id, content, importance, now).1.Success?))
  {
  }

  /** A successful store above the threshold leaves the cache as `_update_cache` left
      it, and that update succeeded. */
  lemma StoreCacheStep(s: System, id: Id, content: Content, category: string, importance: real,
                       relatedTo: Option<Id>, now: int, embed: Embedder)
    requires Inv(s) && importance > s.settings.threshold
    requires StoreMemory(s, id, content, category, importance, relatedTo, now, embed).1.Success?
    ensures PC.UpdateCache(s.cache, id, content, importance, now).1.Success?
    ensures StoreMemory(s, id, content, category, importance, relatedTo, now, embed).0.cache
         == PC.UpdateCache(s.cache, id, content, importance, now).0
  {
  }

  /** A stored record of importance above the threshold is in the cache with its
      content and importance. */
  lemma StoreCaches(s: System, id: Id, content: Content, category: string, importance: real,
                    relatedTo: Option<Id>, now: int, embed: Embedder)
    requires Inv(s) && importance > s.settings.threshold
    requires StoreMemory(s, id, content, category, importance, relatedTo, now, embed).1.Success?
    ensures var c := StoreMemory(s, id, content, category, importance, relatedTo, now, embed).0.cache;
      && id in c.entries.values && c.entries.values[id].content == content
      && id in c.priorities.values && c.priorities.values[id] == importance
  {
    StoreCacheStep(s, id, content, category, importance, relatedTo, now, embed);
    PC.UpdateCacheStores(s.cache, id, content, importance, now);
  }

  /** Storing a record of importance above the threshold and then looking it up in the
      cache before its time to live runs out is a hit that returns the content. */
  lemma StoreThenGetFromCache(s: System, id: Id, content: Content, category: string, importance: real,
                              relatedTo: Option<Id>, now: int, later: int, embed: Embedder)
    requires Inv(s) && importance > s.settings.threshold
    requires now <= later < now + s.settings.retentionPeriod
    requires StoreMemory(s, id, content, category, importance, relatedTo, now, embed).1.Success?
    ensures var c := StoreMemory(s, id, content, category, importance, relatedTo, now, embed).0.cache;
      PC.GetFromCache(c, id, later).1 == Some(content)
  {
    StoreCacheStep(s, id, content, category, importance, relatedTo, now, embed);
    PC.UpdateCacheStores(s.cache, id, content, importance, now);
  }

  /** While the two cache maps hold the same keys, nothing has expired and
      `cache_size` is positive, the cache step cannot fail: `store_memory` fails only before its commit. */
  lemma StoreInSyncOnlyFailsBeforeCommit(s: System, id: Id, content: Content, category: string,
                                         importance: real, relatedTo: Option<Id>, now: int, embed: Embedder)
    requires Inv(s) && PC.InSync(s.cache) && s.settings.cacheSize >= 1
    requires forall k :: k in s.cache.entries.values ==> PC.Live(s.cache.entries.values[k], now)
    ensures var r := StoreMemory(s, id, content, category, importance, relatedTo, now, embed);
      r.1.Success? <==>
        embed(content).Some? &&
        InsertMemory(s.db, id, category, content, importance, now, embed(content).value, relatedTo).Success?
  {
    if embed(content).Some? && importance > s.settings.threshold {
      PC.InSyncNeverFails(s.cache, id, content, importance, now);
    }
  }

  /** `retrieve_memories(category, limit, min_importance, context_size)` at time `now`;
      the cache is not consulted. */
  function Retrieve(s: System, category: string, limit: int, minImportance: real,
                    contextSize: Option<int>, now: int): (r: (System, seq<Retrieved>))
    requires Inv(s)
    ensures Inv(r.0) && r.0.settings == s.settings && r.0.cache == s.cache
    ensures (r.0.db, r.1) == RetrieveMemories(s.db, category, limit, minImportance, contextSize,
                                              s.settings.contextDepth, s.settings.retentionPeriod, now)
  {
    var res := RetrieveMemories(s.db, category, limit, minImportance, contextSize,
                                s.settings.contextDepth, s.settings.retentionPeriod, now);
    (s.(db := res.0), res.1)
  }

  /** On an empty store, a stored record comes back from a retrieve of its category
      within the retention window, reported with one access. */
  lemma StoreThenRetrieve(s: System, id: Id, content: Content, category: string, importance: real,
                          relatedTo: Option<Id>, now: int, embed: Embedder,
                          limit: int, minImportance: real, contextSize: Option<int>, later: int)
    requires Inv(s) && s.db.memories == []
    requires StoreMemory(s, id, content, category, importance, relatedTo, now, embed).1.Success?
    requires limit >= 1 && minImportance <= importance
    requires now <= later <= now + s.settings.retentionPeriod
    ensures var out := Retrieve(StoreMemory(s, id, content, category, importance, relatedTo, now, embed).0,
                                category, limit, minImportance, contextSize, later).1;
      |out| == 1 && out[0].id == id && out[0].content == content && out[0].accessCount == 1
  {
    var s1 := StoreMemory(s, id, content, category, importance, relatedTo, now, embed).0;
    StoreOutcome(s, id, content, category, importance, relatedTo, now, embed);
    InsertThenRetrieve(s.db, id, category, content, importance, now, embed(content).value, relatedTo,
                       limit, minImportance, contextSize, s.settings.contextDepth,
                       s.settings.retentionPeriod, later);
  }

  /** `store_memory` accepts a relation to a record that does not exist (no FOREIGN KEY
      is enforced): the record and the dangling edge are committed, and the inner join
      of `retrieve_memories` then never reports the missing target. */
  lemma DanglingRelationAccepted(s: System, id: Id, content: Content, category: string,
                                 importance: real, target: Id, now: int, embed: Embedder,
                                 category2: string, limit: int, minImportance: real,
                                 contextSize: Option<int>, later: int)
    requires Inv(s) && embed(content).Some?
    requires id !in Ids(s.db) && target != "" && target != id && target !in Ids(s.db)
    requires (id, target) !in EdgeKeys(s.db)
    ensures var r := StoreMemory(s, id, content, category, importance, Some(target), now, embed);
      && id in Ids(r.0.db)
      && (importance <= s.settings.threshold ==> r.1 == Success(id))
      && !NoDangling(r.0.db)
      && !ReportsRelated(Retrieve(r.0, category2, limit, minImportance, contextSize, later).1, target)
  {
    StoreOutcome(s, id, content, category, importance, Some(target), now, embed);
    InsertDangling(s.db, id, category, content, importance, now, embed(content).value, target,
                   category2, limit, minImportance, contextSize, s.settings.contextDepth,
                   s.settings.retentionPeriod, later);
  }

  // ---------------------------------------------------------------- legacy class

  /** The legacy class: the same store, a cache of two plain dicts. */
  datatype LegacySystem = LegacySystem(settings: Settings, db: Db, cache: LC.Cache)

  predicate LegacyInv(s: LegacySystem) {
    LC.Inv(s.cache) && s.cache.capacity == s.settings.cacheSize
  }

  /** The legacy `__init__` and `_init_database`. */
  function LegacyInit(settings: Settings, db: Db): (s: LegacySystem)
    ensures LegacyInv(s) && s.settings == settings
    ensures s.cache.entries.values == map[] && s.cache.priorities.values == map[]
    ensures s.db.memories == db.memories && s.db.relations == db.relations
  {
    LegacySystem(settings, InitDatabase(db), LC.NewCache(settings.cacheSize))
  }

  /** The legacy `store_memory`: the same steps, with the plain-dict cache. */
  function LegacyStoreMemory(s: LegacySystem, id: Id, content: Content, category: string,
                             importance: real, relatedTo: Option<Id>, now: int,
                             embed: Embedder): (r: (LegacySystem, Result<Id>))
    requires LegacyInv(s)
    ensures LegacyInv(r.0) && r.0.settings == s.settings
    ensures r.1.Success? ==> r.1.value == id
    ensures embed(content).None? ==> r.0 == s && r.1 == Failure(EmbeddingFailed)
    ensures importance <= s.settings.threshold ==> r.0.cache == s.cache
  {
    var committed := Commit(s.db, id, content, category, importance, relatedTo, now, embed);
    if committed.Failure? then (s, Failure(committed.error))
    else if importance > s.settings.threshold then
      var update := LC.UpdateCache(s.cache, id, content, importance);
      (s.(db := committed.value, cache := update.0),
       if update.1.Failure? then Failure(update.1.error) else Success(id))
    else
      (s.(db := committed.value), Success(id))
  }

  /** A legacy store of a record above the threshold caches its content and importance,
      and with a positive `cache_size` the cache step never fails. */
  lemma LegacyStoreCaches(s: LegacySystem, id: Id, content: Content, category: string,
                          importance: real, relatedTo: Option<Id>, now: int, embed: Embedder)
    requires LegacyInv(s) && s.settings.cacheSize >= 1
    ensures var r := LegacyStoreMemory(s, id, content, category, importance, relatedTo, now, embed);
      && (r.1.Success? <==>
            embed(content).Some? &&
            InsertMemory(s.db, id, category, content, importance, now, embed(content).value, relatedTo).Success?)
      && (r.1.Success? && importance > s.settings.threshold ==>
            && id in r.0.cache.entries.values && r.0.cache.entries.values[id] == content
            && id in r.0.cache.priorities.values && r.0.cache.priorities.values[id] == importance)
  {
    if embed(content).Some? && importance > s.settings.threshold {
      LC.UpdateCacheSucceeds(s.cache, id, content, importance);
      LC.UpdateCacheStores(s.cache, id, content, importance);
    }
  }

  /** The legacy `retrieve_memories`: the same query on the same store. */
  function LegacyRetrieve(s: LegacySystem, category: string, limit: int, minImportance: real,
                          contextSize: Option<int>, now: int): (r: (LegacySystem, seq<Retrieved>))
    requires LegacyInv(s)
    ensures LegacyInv(r.0) && r.0.settings == s.settings && r.0.cache == s.cache
    ensures (r.0.db, r.1) == RetrieveMemories(s.db, category, limit, minImportance, contextSize,
                                              s.settings.contextDepth, s.settings.retentionPeriod, now)
  {
    var res := RetrieveMemories(s.db, category, limit, minImportance, contextSize,
                                s.settings.contextDepth, s.settings.retentionPeriod, now);
    (s.(db := res.0), res.1)
  }
}

=== FILE: orchestrator.dfy ===
/** The conversational front end of AI1.py: the two model interfaces with their
    message histories, the tool-call dispatcher, and the orchestrator that merges the
    two answers.

    The remote APIs are environment inputs: each call either raises or returns a raw
    response, and the tool implementations are a parameter `run`.
 */
module Orchestrator {
  import opened Results

  // ---------------------------------------------------------------- replies

  /** A tool's outcome, as the implementations behind the dispatcher give it. */
  datatype Outcome = Returned(text: string) | Threw(message: string)

  /** The `result` of a dispatched call: the tool's output, or the not-found dict. */
  datatype ToolValue = Output(text: string) | NotFound(message: string)

  /** One entry of `_process_tool_calls`'s result: `{"tool", "result"}` or
      `{"tool", "error"}`. */
  datatype ToolResult = Done(tool: Option<string>, result: ToolValue) | Raised(tool: Option<string>, error: string)

  /** The extra keys next to `content`. */
  datatype Extra =
    | NoExtra                                       // Claude, no tool calls
    | ToolResults(results: seq<ToolResult>)         // Claude, with `tool_results`
    | ModelInfo(model: string, finishReason: string) // OpenAI
    | Sources(claude: Reply, openai: Reply)         // a combined answer

  /** A reply dict: `{"error": ...}`, a content dict, or the three-part dict of the
      orchestrator's automatic mode. */
  datatype Reply =
    | Failed(error: string)
    | Answer(content: string, extra: Extra)
    | Both(claude: Reply, openai: Reply, combined: Reply)

  // ---------------------------------------------------------------- messages

  datatype Role = SystemRole | UserRole | AssistantRole

  /** A chat message; an assistant message carries the earlier reply. */
  datatype Message = Said(role: Role, text: string) | Replied(reply: Reply)

  /** One history entry: `{"prompt", "response", "timestamp"}`. */
  datatype Entry = Entry(prompt: string, response: Reply, timestamp: int)

  /** `history[-3:]`. */
  function Recent(history: seq<Entry>): (r: seq<Entry>)
    ensures |r| == if |history| < 3 then |history| else 3
    ensures r == history[|history| - |r|..]
  {
    if |history| < 3 then history else history[|history| - 3..]
  }

  /** The context both interfaces build from recent entries: the prompt as a user
      message, then the reply as an assistant message unless it has an `"error"` key. */
  function Context(recent: seq<Entry>): (msgs: seq<Message>)
    ensures |recent| <= |msgs| <= 2 * |recent|
  {
    if |recent| == 0 then []
    else
      [Said(UserRole, recent[0].prompt)]
        + (if recent[0].response.Failed? then [] else [Replied(recent[0].response)])
        + Context(recent[1..])
  }

  /** The context of consecutive entries is the concatenation of their contexts. */
  lemma {:induction false} ContextAppend(a: seq<Entry>, b: seq<Entry>)
    ensures Context(a + b) == Context(a) + Context(b)
  {
    if |a| == 0 {
      assert a + b == b;
    } else {
      assert (a + b)[0] == a[0];
      assert (a + b)[1..] == a[1..] + b;
      ContextAppend(a[1..], b);
    }
  }

  /** One entry contributes its prompt as a user message followed directly by its
      own reply, unless that reply is an error. With `ContextAppend`, every reply in
      a context sits right after the prompt it answers. */
  lemma ContextOne(e: Entry)
    ensures Context([e]) == [Said(UserRole, e.prompt)] + (if e.response.Failed? then [] else [Replied(e.response)])
  {
    assert [e][1..] == [];
  }

  /** The user texts of a message list, in order. */
  function UserTexts(msgs: seq<Message>): seq<string> {
    if |msgs| == 0 then []
    else (if msgs[0].Said? && msgs[0].role == UserRole then [msgs[0].text] else []) + UserTexts(msgs[1..])
  }

  /** The replies carried by a message list, in order. */
  function RepliesOf(msgs: seq<Message>): seq<Reply> {
    if |msgs| == 0 then [] else (if msgs[0].Replied? then [msgs[0].reply] else []) + RepliesOf(msgs[1..])
  }

  function Prompts(entries: seq<Entry>): seq<string> {
    if |entries| == 0 then [] else [entries[0].prompt] + Prompts(entries[1..])
  }

  /** The replies of `entries` without an `"error"` key, in order. */
  function GoodReplies(entries: seq<Entry>): seq<Reply> {
    if |entries| == 0 then []
    else (if entries[0].response.Failed? then [] else [entries[0].response]) + GoodReplies(entries[1..])
  }

  lemma UserTextsAppend(a: seq<Message>, b: seq<Message>)
    ensures UserTexts(a + b) == UserTexts(a) + UserTexts(b)
  {
    if |a| > 0 {
      assert (a + b)[1..] == a[1..] + b;
      UserTextsAppend(a[1..], b);
    } else {
      assert a + b == b;
    }
  }

  lemma RepliesOfAppend(a: seq<Message>, b: seq<Message>)
    ensures RepliesOf(a + b) == RepliesOf(a) + RepliesOf(b)
  {
    if |a| > 0 {
      assert (a + b)[1..] == a[1..] + b;
      RepliesOfAppend(a[1..], b);
    } else {
      assert a + b == b;
    }
  }

  /** The context loses nothing: its user messages are exactly the recent prompts, and
      its assistant messages exactly their error-free replies, both in order. */
  lemma {:induction false} ContextFaithful(recent: seq<Entry>)
    ensures UserTexts(Context(recent)) == Prompts(recent)
    ensures RepliesOf(Context(recent)) == GoodReplies(recent)
  {
    if |recent| > 0 {
      var head := [Said(UserRole, recent[0].prompt)]
        + (if recent[0].response.Failed? then [] else [Replied(recent[0].response)]);
      ContextFaithful(recent[1..]);
      UserTextsAppend(head, Context(recent[1..]));
      RepliesOfAppend(head, Context(recent[1..]));
      assert UserTexts(head) == [recent[0].prompt] by {
        assert head[0] == Said(UserRole, recent[0].prompt);
        assert head[1..] == [] || head[1..] == [Replied(recent[0].response)];
        assert UserTexts(head[1..]) == [];
      }
      assert RepliesOf(head) == if recent[0].response.Failed? then [] else [recent[0].response] by {
        assert head[1..] == [] || head[1..] == [Replied(recent[0].response)];
      }
    }
  }

  /** `ClaudeInterface._prepare_messages(prompt)`. */
  function ClaudeMessages(history: seq<Entry>, prompt: string): (msgs: seq<Message>)
    ensures 1 <= |msgs| <= 7
    ensures msgs[|msgs| - 1] == Said(UserRole, prompt)
    ensures msgs[..|msgs| - 1] == Context(Recent(history))
  {
    Context(Recent(history)) + [Said(UserRole, prompt)]
  }

  const OpenAiSystemPrompt := "Eres un asistente experto en seguridad informática y finanzas."

  /** `OpenAIInterface._prepare_messages(prompt)`. */
  function OpenAiMessages(history: seq<Entry>, prompt: string): (msgs: seq<Message>)
    ensures 2 <= |msgs| <= 8
    ensures msgs[0] == Said(SystemRole, OpenAiSystemPrompt)
    ensures msgs[|msgs| - 1] == Said(UserRole, prompt)
    ensures msgs[1..|msgs| - 1] == Context(Recent(history))
  {
    [Said(SystemRole, OpenAiSystemPrompt)] + Context(Recent(history)) + [Said(UserRole, prompt)]
  }

  /** With three error-free entries or more, the Claude request is at its longest. */
  lemma {:induction false} FullContextLength(recent: seq<Entry>)
    requires forall i :: 0 <= i < |recent| ==> !recent[i].response.Failed?
    ensures |Context(recent)| == 2 * |recent|
  {
    if |recent| > 0 {
      FullContextLength(recent[1..]);
    }
  }

  // ---------------------------------------------------------------- tool calls

  /** A call as extracted from the reply: `name` may be missing. */
  datatype ToolCall = ToolCall(name: Option<string>, arguments: string)

  const ToolNames: seq<string> := ["NetworkVulnerabilityScanner", "QuantumEntropyOracle",
                                   "FinancialAnomalyDetector", "CodeObfuscator"]

  /** Python's `str()` of a name, for the not-found message. */
  function NameText(name: Option<string>): string {
    if name.Some? then name.value else "None"
  }

  /** One iteration of `_process_tool_calls`: a known name is run; an unknown or
      missing one yields the not-found result; a tool that raises yields an error
      entry. */
  function ProcessToolCall(call: ToolCall, run: (string, string) -> Outcome): (r: ToolResult)
    ensures r.tool == call.name
    ensures r.Raised? <==> call.name.Some? && call.name.value in ToolNames && run(call.name.value, call.arguments).Threw?
    ensures (call.name.None? || call.name.value !in ToolNames) ==>
      r == Done(call.name, NotFound("Herramienta no encontrada: " + NameText(call.name)))
    ensures r.Done? && r.result.Output? ==> run(call.name.value, call.arguments) == Returned(r.result.text)
    ensures call.name.Some? && call.name.value in ToolNames && run(call.name.value, call.arguments).Returned? ==>
      r == Done(call.name, Output(run(call.name.value, call.arguments).text))
    ensures call.name.Some? && call.name.value in ToolNames && run(call.name.value, call.arguments).Threw? ==>
      r == Raised(call.name, run(call.name.value, call.arguments).message)
  {
    if call.name.Some? && call.name.value in ToolNames then
      match run(call.name.value, call.arguments)
      case Returned(text) => Done(call.name, Output(text))
      case Threw(message) => Raised(call.name, message)
    else Done(call.name, NotFound("Herramienta no encontrada: " + NameText(call.name)))
  }

  /** `_process_tool_calls(tool_calls)`: one result per call, in the calls' order; an
      error in one call does not stop the others. */
  method ProcessToolCalls(calls: seq<ToolCall>, run: (string, string) -> Outcome) returns (results: seq<ToolResult>)
    ensures |results| == |calls|
    ensures forall i :: 0 <= i < |calls| ==> results[i] == ProcessToolCall(calls[i], run)
  {
    results := [];
    for k := 0 to |calls|
      invariant |results| == k
      invariant forall i :: 0 <= i < k ==> results[i] == ProcessToolCall(calls[i], run)
    {
      results := results + [ProcessToolCall(calls[k], run)];
    }
  }

  /** `_extract_tool_calls`: the extraction is not implemented and finds no call. */
  function ExtractToolCalls(content: string): (calls: seq<ToolCall>)
    ensures calls == []
  {
    []
  }

  // ---------------------------------------------------------------- interfaces

  /** What an API call gives back: it raises, or returns the raw response. */
  datatype Call<R> = ApiRaised(message: string) | ApiReturned(response: R)

  /** Claude's raw response: no `content` attribute, or the list of content blocks. */
  datatype ClaudeResponse = NoContent | Blocks(texts: seq<string>)

  /** `ClaudeInterface._handle_response`, given the extractor: the first block's
      text, plus one tool result per extracted call when there are any; indexing an
      empty block list raises and is caught. */
  function HandleClaude(response: ClaudeResponse, extract: string -> seq<ToolCall>,
                        run: (string, string) -> Outcome): (r: Reply)
    ensures response.NoContent? ==> r == Failed("Respuesta sin contenido")
    ensures response.Blocks? && |response.texts| == 0 ==> r.Failed?
    ensures response.Blocks? && |response.texts| > 0 ==>
      var calls := extract(response.texts[0]);
      && r.Answer? && r.content == response.texts[0]
      && (|calls| == 0 ==> r.extra == NoExtra)
      && (|calls| > 0 ==>
            && r.extra.ToolResults? && |r.extra.results| == |calls|
            && (forall i :: 0 <= i < |calls| ==> r.extra.results[i] == ProcessToolCall(calls[i], run)))
  {
    match response
    case NoContent => Failed("Respuesta sin contenido")
    case Blocks(texts) =>
      if |texts| == 0 then Failed("Error al procesar la respuesta: list index out of range")
      else
        var calls := extract(texts[0]);
        if |calls| > 0 then
          Answer(texts[0], ToolResults(seq(|calls|, i requires 0 <= i < |calls| => ProcessToolCall(calls[i], run))))
        else Answer(texts[0], NoExtra)
  }

  /** With the source's extractor a returned text never carries tool results. */
  lemma ClaudeRepliesWithoutTools(texts: seq<string>, run: (string, string) -> Outcome)
    requires |texts| > 0
    ensures HandleClaude(Blocks(texts), ExtractToolCalls, run) == Answer(texts[0], NoExtra)
  {
  }

  datatype Choice = Choice(content: string, finishReason: string)

  /** `OpenAIInterface._handle_response`: the first choice with the model name; no
      choice at all raises and is caught. */
  function HandleOpenAi(model: string, choices: seq<Choice>): (r: Reply)
    ensures |choices| == 0 <==> r.Failed?
    ensures |choices| > 0 ==> r == Answer(choices[0].content, ModelInfo(model, choices[0].finishReason))
  {
    if |choices| == 0 then Failed("list index out of range")
    else Answer(choices[0].content, ModelInfo(model, choices[0].finishReason))
  }

  /** `process_message(prompt)` of either interface at time `now`: when the API call
      returns, its handled reply is appended to the history and returned; when it
      raises, the error dict is returned and the history is untouched. */
  function Converse(history: seq<Entry>, prompt: string, reply: Call<Reply>, now: int): (r: (seq<Entry>, Reply))
    ensures reply.ApiReturned? ==> r.0 == history + [Entry(prompt, reply.response, now)] && r.1 == reply.response
    ensures reply.ApiRaised? ==> r.0 == history && r.1.Failed?
  {
    match reply
    case ApiRaised(message) => (history, Failed(message))
    case ApiReturned(response) => (history + [Entry(prompt, response, now)], response)
  }

  /** Both interfaces' histories. */
  datatype Orchestrator = Orchestrator(claude: seq<Entry>, openai: seq<Entry>, model: string)

  function ClaudeProcess(o: Orchestrator, prompt: string, call: Call<ClaudeResponse>,
                         run: (string, string) -> Outcome, now: int): (r: (Orchestrator, Reply))
    ensures r.0.openai == o.openai && r.0.model == o.model
    ensures call.ApiReturned? <==> |r.0.claude| == |o.claude| + 1
    ensures call.ApiRaised? ==> r.0.claude == o.claude && r.1 == Failed(call.message)
    ensures call.ApiReturned? ==>
      && r.1 == HandleClaude(call.response, ExtractToolCalls, run)
      && r.0.claude == o.claude + [Entry(prompt, r.1, now)]
  {
    var handled := match call
      case ApiRaised(message) => ApiRaised(message)
      case ApiReturned(response) => ApiReturned(HandleClaude(response, ExtractToolCalls, run));
    var c := Converse(o.claude, prompt, handled, now);
    (o.(claude := c.0), c.1)
  }

  function OpenAiProcess(o: Orchestrator, prompt: string, call: Call<seq<Choice>>, now: int): (r: (Orchestrator, Reply))
    ensures r.0.claude == o.claude && r.0.model == o.model
    ensures call.ApiReturned? <==> |r.0.openai| == |o.openai| + 1
    ensures call.ApiRaised? ==> r.0.openai == o.openai && r.1 == Failed(call.message)
    ensures call.ApiReturned? ==>
      && r.1 == HandleOpenAi(o.model, call.response)
      && r.0.openai == o.openai + [Entry(prompt, r.1, now)]
  {
    var handled := match call
      case ApiRaised(message) => ApiRaised(message)
      case ApiReturned(choices) => ApiReturned(HandleOpenAi(o.model, choices));
    var c := Converse(o.openai, prompt, handled, now);
    (o.(openai := c.0), c.1)
  }

  /** The text of a combined answer. */
  function CombinedText(claude: string, openai: string): string {
    "\nRespuesta combinada de ambos modelos:\n\nClaude dice:\n" + claude + "\n\nOpenAI dice:\n" + openai + "\n"
  }

  /** `_combine_responses(claude, openai)`. */
  function CombineResponses(claude: Reply, openai: Reply): (r: Reply)
    ensures claude.Failed? && openai.Failed? ==> r == Failed("Ambos modelos fallaron")
    ensures claude.Failed? && !openai.Failed? ==> r == openai
    ensures !claude.Failed? && openai.Failed? ==> r == claude
    ensures !claude.Failed? && !openai.Failed? ==> r.Answer? && r.extra == Sources(claude, openai)
  {
    if claude.Failed? && openai.Failed? then Failed("Ambos modelos fallaron")
    else if claude.Failed? then openai
    else if openai.Failed? then claude
    else Answer(CombinedText(ContentOf(claude), ContentOf(openai)), Sources(claude, openai))
  }

  /** `response.get('content', '')`. */
  function ContentOf(r: Reply): string {
    if r.Answer? then r.content else ""
  }

  /** A combined reply is an error exactly when both models failed, and a successful
      one carries both models' contents. */
  lemma CombineFailsOnlyIfBoth(claude: Reply, openai: Reply)
    ensures CombineResponses(claude, openai).Failed? <==> claude.Failed? && openai.Failed?
    ensures claude.Answer? && openai.Answer? ==>
      CombineResponses(claude, openai).content == CombinedText(claude.content, openai.content)
  {
  }

  /** `AIOrchestrator.process_message(prompt, provider)`: one interface, or in any
      other mode both, with their replies combined. */
  function ProcessMessage(o: Orchestrator, prompt: string, provider: string,
                          claudeCall: Call<ClaudeResponse>, openaiCall: Call<seq<Choice>>,
                          run: (string, string) -> Outcome, now: int): (r: (Orchestrator, Reply))
    ensures provider == "claude" ==> r == ClaudeProcess(o, prompt, claudeCall, run, now) && r.0.openai == o.openai
    ensures provider == "openai" ==> r == OpenAiProcess(o, prompt, openaiCall, now) && r.0.claude == o.claude
    ensures provider != "claude" && provider != "openai" ==>
      var claude := ClaudeProcess(o, prompt, claudeCall, run, now);
      var openai := OpenAiProcess(o, prompt, openaiCall, now);
      && r.1.Both?
      && r.1.claude == claude.1 && r.0.claude == claude.0.claude
      && r.1.openai == openai.1 && r.0.openai == openai.0.openai
      && r.0.model == o.model
      && r.1.combined == CombineResponses(r.1.claude, r.1.openai)
  {
    if provider == "claude" then ClaudeProcess(o, prompt, claudeCall, run, now)
    else if provider == "openai" then OpenAiProcess(o, prompt, openaiCall, now)
    else
      var c := ClaudeProcess(o, prompt, claudeCall, run, now);
      var b := OpenAiProcess(c.0, prompt, openaiCall, now);
      (b.0, Both(c.1, b.1, CombineResponses(c.1, b.1)))
  }

  /** In automatic mode, when both calls return, each history gains exactly the entry
      for this prompt, and the next request to either model ends with that exchange
      in its context (when its reply was error free). */
  lemma AutoModeRecords(o: Orchestrator, prompt: string, provider: string,
                        claudeResponse: ClaudeResponse, choices: seq<Choice>,
                        run: (string, string) -> Outcome, now: int, next: string)
    requires provider != "claude" && provider != "openai"
    ensures var r := ProcessMessage(o, prompt, provider, ApiReturned(claudeResponse), ApiReturned(choices), run, now);
      && r.0.claude == o.claude + [Entry(prompt, r.1.claude, now)]
      && r.0.openai == o.openai + [Entry(prompt, r.1.openai, now)]
      && UserTexts(ClaudeMessages(r.0.claude, next)) == Prompts(Recent(r.0.claude)) + [next]
  {
    var r := ProcessMessage(o, prompt, provider, ApiReturned(claudeResponse), ApiReturned(choices), run, now);
    ContextFaithful(Recent(r.0.claude));
    UserTextsAppend(Context(Recent(r.0.claude)), [Said(UserRole, next)]);
    assert UserTexts([Said(UserRole, next)]) == [next];
  }

  /** `clear_history`. */
  function ClearHistory(history: seq<Entry>): (r: seq<Entry>)
    ensures |r| == 0
  {
    []
  }

  /** After `clear_history` the next Claude request is the prompt alone. */
  lemma ClearThenPrepare(history: seq<Entry>, prompt: string)
    ensures ClaudeMessages(ClearHistory(history), prompt) == [Said(UserRole, prompt)]
    ensures OpenAiMessages(ClearHistory(history), prompt) == [Said(SystemRole, OpenAiSystemPrompt), Said(UserRole, prompt)]
  {
  }
}

=== FILE: ordered_maps.dfy ===
/** A Python `dict` with its insertion order: a map plus the order in which its keys
    were first inserted. Assigning to an existing key keeps its position; assigning to
    a new key appends it; deleting a key closes the gap. The order matters wherever
    the source iterates a dict, e.g. `min(d.items(), key=...)` returns the first
    minimal item in this order.
 */
module OrderedMaps {

  /** No element of `s` occurs twice. */
  predicate Distinct<K(==)>(s: seq<K>) {
    |s| == 0 || (s[0] !in s[1..] && Distinct(s[1..]))
  }

  /** `r` is a subsequence of `s`: `s` with some elements dropped, the rest in their
      order. Matching greedily is complete: an element of `r` can always take the
      first equal element of `s` still available. */
  predicate Subseq<K(==)>(r: seq<K>, s: seq<K>) {
    if |r| == 0 then true
    else if |s| == 0 then false
    else if r[0] == s[0] then Subseq(r[1..], s[1..])
    else Subseq(r, s[1..])
  }

  lemma {:induction false} SubseqRefl<K>(s: seq<K>)
    ensures Subseq(s, s)
  {
    if |s| > 0 {
      SubseqRefl(s[1..]);
    }
  }

  /** Matching the head of `s` extends a subsequence of its tail. */
  lemma SubseqCons<K>(x: K, r: seq<K>, s: seq<K>)
    requires |s| > 0 && s[0] == x && Subseq(r, s[1..])
    ensures Subseq([x] + r, s)
  {
    assert ([x] + r)[1..] == r;
  }

  lemma {:induction false} DistinctAppend<K>(s: seq<K>, k: K)
    requires Distinct(s) && k !in s
    ensures Distinct(s + [k])
  {
    if |s| > 0 {
      assert (s + [k])[1..] == s[1..] + [k];
      DistinctAppend(s[1..], k);
    }
  }

  datatype Dict<K(==), V> = Dict(order: seq<K>, values: map<K, V>) {

    /** `order` lists every key of `values` exactly once. */
    predicate Valid() {
      && Distinct(order)
      && (forall i :: 0 <= i < |order| ==> order[i] in values)
      && (forall k :: k in values ==> k in order)
    }

    /** `d[k] = v`. */
    function Put(k: K, v: V): (d: Dict<K, V>)
      requires Valid()
      ensures d.Valid()
      ensures d.values == values[k := v]
      ensures k in values ==> d.order == order
      ensures k !in values ==> d.order == order + [k]
    {
      if k in values then Dict(order, values[k := v])
      else
        DistinctAppend(order, k);
        Dict(order + [k], values[k := v])
    }

    /** `del d[k]`; the caller has checked that `k` is present. */
    function Remove(k: K): (d: Dict<K, V>)
      requires Valid()
      ensures d.Valid()
      ensures d.values == values - {k}
      ensures forall i :: 0 <= i < |d.order| ==> d.order[i] in order
      ensures Subseq(d.order, order)
      ensures k in values ==> |d.order| == |order| - 1
    {
      Dict(Without(order, k), values - {k})
    }

    /** The dict cut down to the keys in `keys`, order kept. */
    function Restrict(keys: set<K>): (d: Dict<K, V>)
      requires Valid()
      ensures d.Valid()
      ensures forall k :: k in d.values ==> k in values && k in keys
      ensures forall k :: k in values && k in keys ==> k in d.values
      ensures forall k :: k in d.values ==> d.values[k] == values[k]
      ensures |d.order| <= |order|
      ensures Subseq(d.order, order)
      ensures (forall k :: k in values ==> k in keys) ==> d == this
    {
      var kept := map k | k in values && k in keys :: values[k];
      if forall k :: k in values ==> k in keys then
        assert kept == values;
        assert Keep(order, keys) == order;
        Dict(Keep(order, keys), kept)
      else
        Dict(Keep(order, keys), kept)
    }
  }

  /** The elements of `s` that lie in `keys`, order kept. */
  function Keep<K(==)>(s: seq<K>, keys: set<K>): (r: seq<K>)
    requires Distinct(s)
    ensures Distinct(r)
    ensures forall i :: 0 <= i < |r| ==> r[i] in s && r[i] in keys
    ensures forall i :: 0 <= i < |s| && s[i] in keys ==> s[i] in r
    ensures |r| <= |s|
    ensures Subseq(r, s)
    ensures (forall i :: 0 <= i < |s| ==> s[i] in keys) ==> r == s
  {
    if |s| == 0 then []
    else
      var rest := Keep(s[1..], keys);
      assert forall i :: 1 <= i < |s| ==> s[i] == s[1..][i - 1];
      if s[0] in keys then
        assert s[0] !in rest;
        assert ([s[0]] + rest)[1..] == rest;
        [s[0]] + rest
      else rest
  }

  /** `s` with the (at most one) occurrence of `k` dropped, order kept. */
  function Without<K(==)>(s: seq<K>, k: K): (r: seq<K>)
    requires Distinct(s)
    ensures Distinct(r)
    ensures forall i :: 0 <= i < |r| ==> r[i] in s && r[i] != k
    ensures forall i :: 0 <= i < |s| && s[i] != k ==> s[i] in r
    ensures k in s ==> |r| == |s| - 1
    ensures k !in s ==> r == s
    ensures Subseq(r, s)
  {
    if |s| == 0 then []
    else if s[0] == k then
      SubseqRefl(s[1..]);
      s[1..]
    else
      var rest := Without(s[1..], k);
      assert s[0] !in rest;
      assert forall i :: 1 <= i < |s| ==> s[i] == s[1..][i - 1];
      SubseqCons(s[0], rest, s);
      [s[0]] + rest
  }

  function Empty<K(==), V>(): (d: Dict<K, V>)
    ensures d.Valid() && |d.values| == 0
  {
    Dict([], map[])
  }
}

=== FILE: priority_cache.dfy ===
/** The priority cache of the newer `AdvancedMemorySystem`
    (src/mar_disrupcion/core/memory_system.py).

    Two structures are kept side by side: `priority_cache`, a TTLCache whose entries
    expire `ttl` seconds after insertion, and `cache_priorities`, a plain dict from id to
    importance that never expires. Expiry is lazy, as in cachetools 5: an expired entry
    counts as absent for `in`, and is physically dropped from `priority_cache` (only) when
    the TTLCache next expires its contents, e.g. inside `len()`. Once that happens the key
    sets of the two structures differ, and eviction can pick a key that `priority_cache`
    no longer holds.
 */
module PriorityCache {
  import opened Results
  import opened Ranking
  import opened OrderedMaps
  import opened MemoryStore

  /** A `priority_cache` value: `{"content", "last_accessed"}` plus the TTLCache's own
      expiry time for the key. */
  datatype Entry = Entry(content: Content, lastAccessed: int, expires: int)

  datatype Metrics = Metrics(hits: nat, misses: nat, evictions: nat, size: nat)

  datatype Cache = Cache(
    capacity: int,                 // cache_size, also the TTLCache's maxsize
    ttl: int,                      // retention_period
    entries: Dict<Id, Entry>,      // priority_cache, in insertion order
    priorities: Dict<Id, real>,    // cache_priorities
    metrics: Metrics)              // cache_metrics

  const ZeroMetrics := Metrics(0, 0, 0, 0)

  /** The state `__init__` builds. */
  function NewCache(capacity: int, ttl: int): (c: Cache)
    ensures Inv(c)
    ensures c.entries.values == map[] && c.priorities.values == map[] && c.metrics == ZeroMetrics
  {
    Cache(capacity, ttl, Empty(), Empty(), ZeroMetrics)
  }

  /** `len(priority_cache)`. */
  function Size(c: Cache): nat {
    |c.entries.order|
  }

  /** What every operation preserves: the dict is well formed, every cached key still
      has a priority (the converse can fail after expiry), and the TTLCache never holds
      more than `cache_size` entries (none at all when `cache_size <= 0`). */
  predicate Inv(c: Cache) {
    && c.entries.Valid()
    && c.priorities.Valid()
    && c.entries.values.Keys <= c.priorities.values.Keys
    && (Size(c) <= c.capacity || Size(c) == 0)
  }

  /** The two structures hold the same keys (true until something expires). */
  predicate InSync(c: Cache) {
    c.entries.values.Keys == c.priorities.values.Keys
  }

  predicate Live(e: Entry, now: int) {
    now < e.expires
  }

  /** The TTLCache's lazy `expire(now)`: drops expired entries from `priority_cache`
      only; `cache_priorities` is a plain dict and keeps them. */
  function Expire(c: Cache, now: int): (r: Cache)
    requires Inv(c)
    ensures Inv(r)
    ensures forall k :: k in r.entries.values ==>
      && k in c.entries.values
      && r.entries.values[k] == c.entries.values[k]
      && Live(c.entries.values[k], now)
    ensures forall k :: k in c.entries.values && Live(c.entries.values[k], now) ==> k in r.entries.values
    ensures r.priorities == c.priorities && r.metrics == c.metrics
    ensures r.capacity == c.capacity && r.ttl == c.ttl
  {
    var live := set k | k in c.entries.values && Live(c.entries.values[k], now);
    c.(entries := c.entries.Restrict(live))
  }

  /** The eviction key of line 261: the priority, then the entry's `last_accessed`,
      with 0 for a key `priority_cache` no longer holds (`.get(k, {}).get(..., 0)`). */
  function EvictKey(c: Cache, k: Id): Key
    requires k in c.priorities.values
  {
    Key(c.priorities.values[k], if k in c.entries.values then c.entries.values[k].lastAccessed else 0)
  }

  /** The eviction keys of `keys`, in order. */
  function EvictKeys(c: Cache, keys: seq<Id>): (r: seq<Key>)
    requires forall i :: 0 <= i < |keys| ==> keys[i] in c.priorities.values
    ensures |r| == |keys|
    ensures forall i :: 0 <= i < |keys| ==> r[i] == EvictKey(c, keys[i])
  {
    if |keys| == 0 then [] else [EvictKey(c, keys[0])] + EvictKeys(c, keys[1..])
  }

  /** Position, in dict order, of `min(cache_priorities.items(), key=...)`. */
  function VictimIndex(c: Cache): (m: nat)
    requires c.priorities.Valid() && |c.priorities.order| > 0
    ensures m < |c.priorities.order|
  {
    FirstMin(EvictKeys(c, c.priorities.order))
  }

  /** The key `_update_cache` evicts (see `VictimIsMin`). */
  function Victim(c: Cache): (v: Id)
    requires c.priorities.Valid() && |c.priorities.order| > 0
    ensures v in c.priorities.values
  {
    c.priorities.order[VictimIndex(c)]
  }

  /** The victim has minimal priority, then oldest access, and among exact ties it is
      the earliest inserted: every key before it in dict order ranks strictly higher. */
  lemma VictimIsMin(c: Cache)
    requires c.priorities.Valid() && |c.priorities.order| > 0
    ensures forall k :: k in c.priorities.values ==> KeyLe(EvictKey(c, Victim(c)), EvictKey(c, k))
    ensures forall i :: 0 <= i < VictimIndex(c) ==>
      KeyLt(EvictKey(c, Victim(c)), EvictKey(c, c.priorities.order[i]))
  {
    var order := c.priorities.order;
    var keys := EvictKeys(c, order);
    var m := VictimIndex(c);
    forall k | k in c.priorities.values ensures KeyLe(EvictKey(c, order[m]), EvictKey(c, k)) {
      var j :| 0 <= j < |order| && order[j] == k;
      assert KeyLe(keys[m], keys[j]);
    }
    forall i | 0 <= i < m ensures KeyLt(EvictKey(c, order[m]), EvictKey(c, order[i])) {
      assert KeyLt(keys[m], keys[i]);
    }
  }

  /** The unconditional tail of `_update_cache`: insert the entry (stamped `now`,
      expiring at `expires`) and its priority, then record the size. */
  function Admit(c: Cache, id: Id, content: Content, importance: real, now: int, expires: int): (r: Cache)
    requires c.entries.Valid() && c.priorities.Valid()
    requires c.entries.values.Keys <= c.priorities.values.Keys
    requires Size(c) < c.capacity
    ensures Inv(r)
    ensures r.entries.values == c.entries.values[id := Entry(content, now, expires)]
    ensures r.priorities.values == c.priorities.values[id := importance]
    ensures r.metrics == c.metrics.(size := Size(r))
    ensures r.capacity == c.capacity && r.ttl == c.ttl
  {
    var entries := c.entries.Put(id, Entry(content, now, expires));
    c.(entries := entries,
       priorities := c.priorities.Put(id, importance),
       metrics := c.metrics.(size := |entries.order|))
  }

  /** The eviction step of a full `_update_cache`: `evictions` is counted, then the
      victim is deleted from `priority_cache` (KeyError if it expired out of it) and
      from `cache_priorities`. */
  function Evict(e: Cache): (r: (Cache, Result<()>))
    requires Inv(e) && |e.priorities.order| > 0
    ensures r.1.Success? <==> Victim(e) in e.entries.values
    ensures r.1.Failure? ==> r.1.error == KeyError && r.0.entries == e.entries && r.0.priorities == e.priorities
    ensures r.1.Success? ==>
      && r.0.entries.values == e.entries.values - {Victim(e)}
      && r.0.priorities.values == e.priorities.values - {Victim(e)}
      && Size(r.0) == Size(e) - 1
    ensures Inv(r.0)
    ensures r.0.metrics == e.metrics.(evictions := e.metrics.evictions + 1)
    ensures r.0.capacity == e.capacity && r.0.ttl == e.ttl
  {
    var v := Victim(e);
    var counted := e.(metrics := e.metrics.(evictions := e.metrics.evictions + 1));
    if v !in counted.entries.values then (counted, Failure(KeyError))
    else (counted.(entries := counted.entries.Remove(v), priorities := counted.priorities.Remove(v)), Success(()))
  }

  /** The first half of `_update_cache` on an expired cache `e`: nothing to do below
      capacity; otherwise `min` over `cache_priorities` (raising when it is empty) and
      the eviction of its result. */
  function MakeRoom(e: Cache): (r: (Cache, Result<()>))
    requires Inv(e)
    ensures Inv(r.0)
    ensures r.1.Success? ==> Size(r.0) < r.0.capacity
    ensures r.1.Success? && Size(e) >= e.capacity ==>
      && |e.priorities.order| > 0
      && r.0.entries.values == e.entries.values - {Victim(e)}
      && r.0.priorities.values == e.priorities.values - {Victim(e)}
    ensures r.0.capacity == e.capacity && r.0.ttl == e.ttl
    ensures r.0.metrics.hits == e.metrics.hits && r.0.metrics.misses == e.metrics.misses
  {
    if Size(e) < e.capacity then (e, Success(()))
    else if |e.priorities.order| == 0 then (e, Failure(EmptySequence))
    else Evict(e)
  }

  /** What `_update_cache` does once the TTLCache has dropped what expired: make room
      (see `MakeRoom`), then insert the entry, stamped `now` and expiring `ttl` seconds
      later. Nothing is inserted after a failure. */
  function Place(e: Cache, id: Id, content: Content, importance: real, now: int): (r: (Cache, Result<()>))
    requires Inv(e)
    ensures Inv(r.0)
    ensures r.0.capacity == e.capacity && r.0.ttl == e.ttl
    ensures r.0.metrics.hits == e.metrics.hits && r.0.metrics.misses == e.metrics.misses
  {
    var room := MakeRoom(e);
    if room.1.Failure? then room
    else (Admit(room.0, id, content, importance, now, now + e.ttl), Success(()))
  }

  /** `_update_cache(id, content, importance)` at time `now`: expiry, then `Place`. */
  function UpdateCache(c: Cache, id: Id, content: Content, importance: real, now: int): (r: (Cache, Result<()>))
    requires Inv(c)
    ensures Inv(r.0)
    ensures r.0.capacity == c.capacity && r.0.ttl == c.ttl
    ensures r.0.metrics.hits == c.metrics.hits && r.0.metrics.misses == c.metrics.misses
  {
    Place(Expire(c, now), id, content, importance, now)
  }

  /** After a successful placement the new entry is cached with a fresh expiry, its
      priority is recorded, and `size` reports the TTLCache's length. */
  lemma PlaceStores(e: Cache, id: Id, content: Content, importance: real, now: int)
    requires Inv(e)
    requires Place(e, id, content, importance, now).1.Success?
    ensures var r := Place(e, id, content, importance, now).0;
      && id in r.entries.values && r.entries.values[id] == Entry(content, now, now + e.ttl)
      && id in r.priorities.values && r.priorities.values[id] == importance
      && r.metrics.size == Size(r)
  {
    var room := MakeRoom(e);
  }

  /** The same for a whole `_update_cache` call. */
  lemma UpdateCacheStores(c: Cache, id: Id, content: Content, importance: real, now: int)
    requires Inv(c)
    requires UpdateCache(c, id, content, importance, now).1.Success?
    ensures var r := UpdateCache(c, id, content, importance, now).0;
      && id in r.entries.values && r.entries.values[id] == Entry(content, now, now + c.ttl)
      && id in r.priorities.values && r.priorities.values[id] == importance
      && r.metrics.size == Size(r)
  {
    PlaceStores(Expire(c, now), id, content, importance, now);
  }

  /** When `_update_cache` raises, and why: only on a full cache, either because
      `cache_priorities` is empty or because its minimal key has already expired out of
      `priority_cache`. */
  lemma PlaceOutcome(e: Cache, id: Id, content: Content, importance: real, now: int)
    requires Inv(e)
    ensures var r := Place(e, id, content, importance, now);
      && (r.1.Success? <==> Size(e) < e.capacity || (|e.priorities.order| > 0 && Victim(e) in e.entries.values))
      && (r.1 == Failure(EmptySequence) <==> Size(e) >= e.capacity && |e.priorities.order| == 0)
      && (r.1 == Failure(KeyError) <==>
            Size(e) >= e.capacity && |e.priorities.order| > 0 && Victim(e) !in e.entries.values)
  {
  }

  /** Below capacity the key is simply added; nothing is evicted. */
  lemma PlaceBelowCapacity(e: Cache, id: Id, content: Content, importance: real, now: int)
    requires Inv(e) && Size(e) < e.capacity
    ensures var r := Place(e, id, content, importance, now);
      && r.1.Success?
      && r.0.entries.values.Keys == e.entries.values.Keys + {id}
      && r.0.priorities.values == e.priorities.values[id := importance]
      && r.0.metrics.evictions == e.metrics.evictions
  {
  }


  /** At capacity, a successful placement has found its victim still cached, and has
      counted one eviction. */
  lemma PlaceEvictsVictim(e: Cache, id: Id, content: Content, importance: real, now: int)
    requires Inv(e) && Size(e) >= e.capacity
    requires Place(e, id, content, importance, now).1.Success?
    ensures |e.priorities.order| > 0 && Victim(e) in e.entries.values
    ensures Place(e, id, content, importance, now).0.metrics.evictions == e.metrics.evictions + 1
  {
  }

  /** At capacity, a successful placement removes exactly the victim from
      `priority_cache`, then adds the new key. */
  lemma PlaceEvictsEntry(e: Cache, id: Id, content: Content, importance: real, now: int)
    requires Inv(e) && Size(e) >= e.capacity
    requires Place(e, id, content, importance, now).1.Success?
    ensures |e.priorities.order| > 0
    ensures Place(e, id, content, importance, now).0.entries.values.Keys
         == e.entries.values.Keys - {Victim(e)} + {id}
  {
  }


  /** At capacity, a successful placement removes exactly the victim from
      `cache_priorities`, then records the new priority. */
  lemma PlaceEvictsPriority(e: Cache, id: Id, content: Content, importance: real, now: int)
    requires Inv(e) && Size(e) >= e.capacity
    requires Place(e, id, content, importance, now).1.Success?
    ensures |e.priorities.order| > 0
    ensures Place(e, id, content, importance, now).0.priorities.values
         == (e.priorities.values - {Victim(e)})[id := importance]
  {
    var room := MakeRoom(e);
  }
  /** A successful placement leaves every other surviving entry exactly as it was. */
  lemma PlaceKeepsOthers(e: Cache, id: Id, content: Content, importance: real, now: int)
    requires Inv(e)
    requires Place(e, id, content, importance, now).1.Success?
    ensures var r := Place(e, id, content, importance, now).0;
      forall k :: k in r.entries.values && k != id ==>
        k in e.entries.values && r.entries.values[k] == e.entries.values[k]
  {
  }


  /** A failed placement inserts nothing and leaves both structures as they were;
      for a stale victim the eviction counter has moved (it is incremented before the
      `del` raises). */
  lemma PlaceFailureInsertsNothing(e: Cache, id: Id, content: Content, importance: real, now: int)
    requires Inv(e)
    requires Place(e, id, content, importance, now).1.Failure?
    ensures var r := Place(e, id, content, importance, now);
      && r.0.entries == e.entries
      && r.0.priorities == e.priorities
      && (r.1 == Failure(KeyError) ==> r.0.metrics.evictions == e.metrics.evictions + 1)
      && (r.1 == Failure(EmptySequence) ==> r.0.metrics.evictions == e.metrics.evictions)
  {
  }

  /** `get_from_cache(id)`: a hit (live entry) counts a hit, refreshes
      `last_accessed` and returns the content; anything else counts a miss. */
  function GetFromCache(c: Cache, id: Id, now: int): (r: (Cache, Option<Content>))
    requires Inv(c)
    ensures Inv(r.0)
    ensures r.1.Some? <==> id in c.entries.values && Live(c.entries.values[id], now)
    ensures r.1.Some? ==>
      && r.1.value == c.entries.values[id].content
      && r.0.metrics == c.metrics.(hits := c.metrics.hits + 1)
      && r.0.entries.values == c.entries.values[id := c.entries.values[id].(lastAccessed := now)]
    ensures r.1.None? ==> r.0 == c.(metrics := c.metrics.(misses := c.metrics.misses + 1))
    ensures r.0.priorities == c.priorities
    ensures r.0.metrics.hits + r.0.metrics.misses == c.metrics.hits + c.metrics.misses + 1
  {
    if id in c.entries.values && Live(c.entries.values[id], now) then
      var entry := c.entries.values[id];
      (c.(entries := c.entries.Put(id, entry.(lastAccessed := now)),
          metrics := c.metrics.(hits := c.metrics.hits + 1)),
       Some(entry.content))
    else
      (c.(metrics := c.metrics.(misses := c.metrics.misses + 1)), None)
  }

  /** `hit_ratio` of `get_cache_metrics`: hits over lookups, 0 before any lookup. */
  function HitRatio(m: Metrics): (ratio: real)
    ensures m.hits + m.misses == 0 ==> ratio == 0.0
    ensures m.hits + m.misses > 0 ==> ratio * (m.hits + m.misses) as real == m.hits as real
    ensures 0.0 <= ratio <= 1.0
  {
    if m.hits + m.misses > 0 then m.hits as real / (m.hits + m.misses) as real else 0.0
  }

  /** `clear_cache`: both structures emptied and every counter zeroed. */
  function ClearCache(c: Cache): (r: Cache)
    ensures Inv(r)
    ensures r.entries.values == map[] && r.priorities.values == map[] && r.metrics == ZeroMetrics
    ensures r.capacity == c.capacity && r.ttl == c.ttl
  {
    c.(entries := Empty(), priorities := Empty(), metrics := ZeroMetrics)
  }

  /** A run of `get_from_cache` calls at the same time. */
  function Lookups(c: Cache, ids: seq<Id>, now: int): (r: Cache)
    requires Inv(c)
    ensures Inv(r)
    decreases |ids|
  {
    if |ids| == 0 then c else Lookups(GetFromCache(c, ids[0], now).0, ids[1..], now)
  }

  /** Every lookup is counted exactly once, as a hit or as a miss. */
  lemma {:induction false} LookupsCounted(c: Cache, ids: seq<Id>, now: int)
    requires Inv(c)
    ensures Lookups(c, ids, now).metrics.hits + Lookups(c, ids, now).metrics.misses
         == c.metrics.hits + c.metrics.misses + |ids|
    ensures Lookups(c, ids, now).metrics.evictions == c.metrics.evictions
    decreases |ids|
  {
    if |ids| > 0 {
      LookupsCounted(GetFromCache(c, ids[0], now).0, ids[1..], now);
    }
  }

  /** After `clear_cache` and `n > 0` lookups of which `h` hit, `hit_ratio == h / n`. */
  lemma HitRatioAfterClear(c: Cache, ids: seq<Id>, now: int)
    requires Inv(c) && |ids| > 0
    ensures var m := Lookups(ClearCache(c), ids, now).metrics;
      HitRatio(m) * |ids| as real == m.hits as real
  {
    var m := Lookups(ClearCache(c), ids, now).metrics;
    LookupsCounted(ClearCache(c), ids, now);
    assert m.hits + m.misses == |ids|;
  }

  /** The keys of a map after some keys are removed and one is set. */
  lemma KeysAfterReplace<V>(m: map<Id, V>, gone: set<Id>, id: Id, x: V)
    ensures (m - gone)[id := x].Keys == m.Keys - gone + {id}
  {
  }

  /** A full, in-sync cache with positive capacity has a victim, and it is cached. */
  lemma InSyncVictimCached(e: Cache)
    requires Inv(e) && InSync(e) && 1 <= e.capacity <= Size(e)
    ensures |e.priorities.order| > 0 && Victim(e) in e.entries.values
  {
    assert e.entries.order[0] in e.priorities.values;
  }

  /** With no expired entry, expiry changes nothing. */
  lemma ExpireNothing(c: Cache, now: int)
    requires Inv(c)
    requires forall k :: k in c.entries.values ==> Live(c.entries.values[k], now)
    ensures Expire(c, now) == c
  {
  }

  /** Placing into an in-sync cache keeps it in sync, and succeeds when capacity is
      positive. */
  lemma PlaceKeepsSync(e: Cache, id: Id, content: Content, importance: real, now: int)
    requires Inv(e) && InSync(e) && e.capacity >= 1
    ensures Place(e, id, content, importance, now).1.Success?
    ensures InSync(Place(e, id, content, importance, now).0)
  {
    if Size(e) < e.capacity {
      PlaceBelowCapacity(e, id, content, importance, now);
      KeysAfterReplace(e.priorities.values, {}, id, importance);
    } else {
      InSyncVictimCached(e);
      PlaceOutcome(e, id, content, importance, now);
      PlaceEvictsEntry(e, id, content, importance, now);
      PlaceEvictsPriority(e, id, content, importance, now);
      KeysAfterReplace(e.priorities.values, {Victim(e)}, id, importance);
    }
  }


  /** While nothing has expired, the two structures keep the same keys, so eviction
      always finds its victim in both and `_update_cache` never raises. */
  lemma InSyncNeverFails(c: Cache, id: Id, content: Content, importance: real, now: int)
    requires Inv(c) && InSync(c) && c.capacity >= 1
    requires forall k :: k in c.entries.values ==> Live(c.entries.values[k], now)
    ensures UpdateCache(c, id, content, importance, now).1.Success?
    ensures InSync(UpdateCache(c, id, content, importance, now).0)
  {
    ExpireNothing(c, now);
    PlaceKeepsSync(c, id, content, importance, now);
  }

  /** Expiry removes an entry from `priority_cache` but not its priority: the two
      structures are out of sync from then on. */
  lemma ExpiredKeepsPriority(c: Cache, k: Id, now: int)
    requires Inv(c) && k in c.entries.values && !Live(c.entries.values[k], now)
    ensures k !in Expire(c, now).entries.values && k in Expire(c, now).priorities.values
    ensures !InSync(Expire(c, now))
  {
  }

  // Divergence, concretely: a cache of capacity 1 and TTL 10; "a" is stored at time 0,
  // "b" at time 20 (when "a" has expired), and "c" at time 21.

  /** The cache after "a" is stored at time 0. */
  const AfterA := Cache(1, 10, Dict(["a"], map["a" := Entry("A", 0, 10)]),
                        Dict(["a"], map["a" := 0.9]), Metrics(0, 0, 0, 1))

  /** The cache after "b" is stored at time 20: "a" has expired out of the TTLCache, but
      still has its priority. */
  const AfterB := Cache(1, 10, Dict(["b"], map["b" := Entry("B", 20, 30)]),
                        Dict(["a", "b"], map["a" := 0.9, "b" := 0.9]), Metrics(0, 0, 0, 1))

  lemma StoreA()
    ensures UpdateCache(NewCache(1, 10), "a", "A", 0.9, 0) == (AfterA, Success(()))
  {
    var e := Expire(NewCache(1, 10), 0);
    assert e == NewCache(1, 10);
    var r := Admit(e, "a", "A", 0.9, 0, 10);
    assert r.entries == AfterA.entries;
    assert r.priorities == AfterA.priorities;
  }

  /** At time 20, "a" has expired out of the TTLCache. */
  lemma ExpireAfterA()
    ensures Inv(AfterA) && Expire(AfterA, 20) == AfterA.(entries := Empty())
  {
    var e := Expire(AfterA, 20);
    assert "a" !in e.entries.values by {
      ExpiredKeepsPriority(AfterA, "a", 20);
    }
    assert e.entries.order == [];
  }

  lemma StoreBAfterAExpired()
    ensures Inv(AfterA) && UpdateCache(AfterA, "b", "B", 0.9, 20) == (AfterB, Success(()))
  {
    ExpireAfterA();
    var r := Admit(AfterA.(entries := Empty()), "b", "B", 0.9, 20, 30);
    assert r.entries == AfterB.entries;
    assert r.priorities == AfterB.priorities;
  }


  /** At time 21 the expired "a" still has the least eviction key (it reads as never
      accessed), so it is chosen; the `del` raises after the eviction was counted. */
  lemma StoreCRaises()
    ensures Inv(AfterB)
    ensures var r := UpdateCache(AfterB, "c", "C", 0.9, 21);
      r.1 == Failure(KeyError) && r.0 == AfterB.(metrics := Metrics(0, 0, 1, 1))
  {
    var e := Expire(AfterB, 21);
    assert e == AfterB by {
      ExpireNothing(AfterB, 21);
    }
    assert EvictKey(e, "a") == Key(0.9, 0) && EvictKey(e, "b") == Key(0.9, 20);
    assert Victim(e) == "a" by {
      VictimIsMin(e);
      assert KeyLe(EvictKey(e, Victim(e)), EvictKey(e, "a"));
    }
  }

  /** The whole run: the third store fails with KeyError, one eviction is counted, and
      "c" is not cached. */
  lemma StaleVictimRaises()
    ensures var c1 := UpdateCache(NewCache(1, 10), "a", "A", 0.9, 0).0;
      var c2 := UpdateCache(c1, "b", "B", 0.9, 20).0;
      var r3 := UpdateCache(c2, "c", "C", 0.9, 21);
      && r3.1 == Failure(KeyError)
      && r3.0.metrics.evictions == 1
      && "c" !in r3.0.entries.values
  {
    StoreA();
    StoreBAfterAExpired();
    StoreCRaises();
  }
}

=== FILE: ranking.dfy ===
/** Ordering helpers shared by every query of the subsystem.

    Each ORDER BY of the source sorts rows by a numeric key, descending; a `Key` is a
    pair compared lexicographically, which covers both the two-key memory order
    `(importance DESC, last_accessed DESC)` and the one-key orders (relation strength,
    backup mtime, decision score). SQL leaves the order of equal keys unspecified, so
    the contracts below promise sortedness and membership, never a tie order.
 */
module Ranking {

  datatype Key = Key(major: real, minor: int)

  /** Lexicographic "a is not greater than b". */
  predicate KeyLe(a: Key, b: Key) {
    a.major < b.major || (a.major == b.major && a.minor <= b.minor)
  }

  /** Lexicographic "a is strictly smaller than b" (Python tuple `<`). */
  predicate KeyLt(a: Key, b: Key) {
    a.major < b.major || (a.major == b.major && a.minor < b.minor)
  }

  /** `s` is in non-increasing key order. */
  predicate SortedDesc<T>(s: seq<T>, key: T -> Key) {
    forall i, j :: 0 <= i < j < |s| ==> KeyLe(key(s[j]), key(s[i]))
  }

  function Insert<T>(x: T, s: seq<T>, key: T -> Key): (r: seq<T>)
    requires SortedDesc(s, key)
    ensures SortedDesc(r, key)
    ensures multiset(r) == multiset(s) + multiset{x}
    ensures |r| == |s| + 1
  {
    if |s| == 0 then [x]
    else if KeyLe(key(s[0]), key(x)) then [x] + s
    else
      var rest := Insert(x, s[1..], key);
      assert s == [s[0]] + s[1..];
      assert forall k :: 0 <= k < |rest| ==> KeyLe(key(rest[k]), key(s[0])) by {
        forall k | 0 <= k < |rest| ensures KeyLe(key(rest[k]), key(s[0])) {
          assert rest[k] in multiset(rest);
          if rest[k] != x {
            var j :| 0 <= j < |s[1..]| && s[1..][j] == rest[k];
            assert s[j + 1] == rest[k];
          }
        }
      }
      [s[0]] + rest
  }

  /** Insertion sort into non-increasing key order: a permutation of `s`. */
  function SortDesc<T>(s: seq<T>, key: T -> Key): (r: seq<T>)
    ensures SortedDesc(r, key)
    ensures multiset(r) == multiset(s)
    ensures |r| == |s|
  {
    if |s| == 0 then []
    else
      assert s == [s[0]] + s[1..];
      Insert(s[0], SortDesc(s[1..], key), key)
  }

  /** Elements of `s` satisfying `p`, in their original order. */
  function Filter<T>(s: seq<T>, p: T -> bool): (r: seq<T>)
    ensures forall i :: 0 <= i < |r| ==> r[i] in s && p(r[i])
    ensures forall i :: 0 <= i < |s| && p(s[i]) ==> s[i] in r
    ensures multiset(r) <= multiset(s)
    ensures |r| <= |s|
  {
    if |s| == 0 then []
    else
      assert s == [s[0]] + s[1..];
      if p(s[0]) then [s[0]] + Filter(s[1..], p) else Filter(s[1..], p)
  }

  /** Filtering by a predicate every element meets changes nothing. */
  lemma {:induction false} FilterAll<T>(s: seq<T>, p: T -> bool)
    requires forall i :: 0 <= i < |s| ==> p(s[i])
    ensures Filter(s, p) == s
  {
    if |s| > 0 {
      FilterAll(s[1..], p);
      assert s == [s[0]] + s[1..];
    }
  }

  /** SQLite's `LIMIT n`: a negative limit means no limit. */
  function Limit<T>(s: seq<T>, n: int): (r: seq<T>)
    ensures n >= 0 ==> |r| == if n < |s| then n else |s|
    ensures n < 0 ==> r == s
    ensures r <= s
    ensures multiset(r) <= multiset(s)
  {
    if n < 0 || n >= |s| then s
    else
      assert s == s[..n] + s[n..];
      s[..n]
  }

  /** Every element left out of a limited sorted prefix ranks no higher than every
      element kept: the prefix is a top-k of the sorted sequence. */
  lemma {:induction false} LimitKeepsTop<T>(sorted: seq<T>, key: T -> Key, n: int, x: T)
    requires SortedDesc(sorted, key)
    requires x in sorted && x !in Limit(sorted, n)
    ensures forall y :: y in Limit(sorted, n) ==> KeyLe(key(x), key(y))
  {
    var top := Limit(sorted, n);
    var j :| 0 <= j < |sorted| && sorted[j] == x;
    assert top == sorted[..|top|];
    assert j >= |top|;
    forall y | y in top ensures KeyLe(key(x), key(y)) {
      var i :| 0 <= i < |top| && top[i] == y;
      assert sorted[i] == y;
    }
  }

  /** `ORDER BY key DESC LIMIT n` over the rows `s`: the rows in non-increasing key
      order, exactly min(n, |s|) of them, or all of them when `n` is negative. */
  function TopN<T>(s: seq<T>, key: T -> Key, n: int): (r: seq<T>)
    ensures SortedDesc(r, key)
    ensures n >= 0 ==> |r| == if n < |s| then n else |s|
    ensures n < 0 ==> multiset(r) == multiset(s)
    ensures multiset(r) <= multiset(s)
    ensures forall i :: 0 <= i < |r| ==> r[i] in s
  {
    var sorted := SortDesc(s, key);
    var r := Limit(sorted, n);
    forall i | 0 <= i < |r| ensures r[i] in s {
      assert r[i] in multiset(sorted);
    }
    r
  }

  /** An element of `s` left out of the top `n` ranks no higher than any kept. */
  lemma TopNIsTop<T>(s: seq<T>, key: T -> Key, n: int, x: T)
    requires x in s && x !in TopN(s, key, n)
    ensures forall y :: y in TopN(s, key, n) ==> KeyLe(key(x), key(y))
  {
    var sorted := SortDesc(s, key);
    assert x in multiset(sorted);
    LimitKeepsTop(sorted, key, n, x);
  }

  /** When `s` fits in `n` (or `n` is negative), nothing is left out. */
  lemma TopNTakesAllThatFit<T>(s: seq<T>, key: T -> Key, n: int, x: T)
    requires x in s && (n < 0 || |s| <= n)
    ensures x in TopN(s, key, n)
  {
    var sorted := SortDesc(s, key);
    assert x in multiset(sorted);
  }

  /** Python's `min(xs, key=...)`: the FIRST index whose key is minimal. Every key is
      no smaller than the chosen one, and every earlier key is strictly larger. */
  function FirstMin(keys: seq<Key>): (i: nat)
    requires |keys| > 0
    ensures i < |keys|
    ensures forall j :: 0 <= j < |keys| ==> KeyLe(keys[i], keys[j])
    ensures forall j :: 0 <= j < i ==> KeyLt(keys[i], keys[j])
  {
    if |keys| == 1 then 0
    else
      var b := FirstMin(keys[..|keys| - 1]);
      assert forall j :: 0 <= j < |keys| - 1 ==> keys[..|keys| - 1][j] == keys[j];
      if KeyLt(keys[|keys| - 1], keys[b]) then |keys| - 1 else b
  }
}

=== FILE: results.dfy ===
/** Optional values, results, and the exception kinds the memory subsystem can raise.

    The source raises Python built-in and driver exceptions (sqlite3.IntegrityError,
    KeyError, ValueError, FileNotFoundError, ...) and lets them propagate; a `Failure`
    here stands for "the call raised", with the kind of exception as its payload.
 */
module Results {

  datatype Option<+T> = None | Some(value: T) {

    /** The value, or `default` when absent. */
    function GetOr(default: T): T {
      match this
      case Some(v) => v
      case None => default
    }
  }

  /** Kinds of exception raised by the modelled code. */
  datatype Fault =
    | EmbeddingFailed           // the embedding provider raised
    | IntegrityError            // an INSERT hit an existing PRIMARY KEY
    | KeyError                  // `del d[k]` on a key the mapping does not hold
    | EmptySequence             // `min()` / `max()` over an empty sequence
    | FileNotFound              // opening a snapshot file that does not exist
    | RecursionLimit            // the restore/rollback recursion ran out of steps
    | ValueError(msg: string)   // a validation failure

  datatype Result<+T> = Success(value: T) | Failure(error: Fault) {

    predicate IsFailure() {
      Failure?
    }

    function PropagateFailure<U>(): Result<U>
      requires Failure?
    {
      Failure(error)
    }

    function Extract(): T
      requires Success?
    {
      value
    }
  }
}
